=== FILE: README.md ===
# SECUR-E simulation core in Dafny

SECUR-E is a gated community's security console. This project models its
simulation and dispatch logic, all of it in `index.tsx`:

- the road network and its A* route finder;
- the audit ledger, a hash chain built with a 32-bit rolling string hash;
- the two-second tick that moves every guard, vehicle, police car and drone;
- the operator's and the autonomous controller's commands: drones, sonic
  deterrents, patrols, police, the emergency ("breach") protocol, and the
  response to a detected anomaly according to its threat level;
- the start-up state.

The model is functional. Every React state update becomes a pure function
from one `World` record to the next. Coordinates are exact reals, and every
distance comparison is made on squared distances. Random draws are
parameters in `[0, 1)`. The clock is a `Clock(now, iso)` parameter: the
millisecond reading and its ISO text.

Modules, one file each:

- `Common`: options, points, the first-minimum scan, `toString(base)`, `toFixed(0)`.
- `RoadGraph`: the waypoints, the edges, the adjacency table and the nearest waypoint.
  - A* runs on integer path lengths. The `g + h` comparison is decided exactly with
    integer arithmetic, because every road is axis-aligned with integer length and
    only the heuristic is a square root.
- `Ledger`: UTF-16 code units, the rolling hash, events, blocks and the chain predicate.
- `Layout`: map features, sectors, deterrent stations, fixed points, a resident's
  home location and the nearest landmark's name.
- `Units`: the unit record and one unit's tick.
- `Dispatch`: the world record, the commands and the world invariant.
- `Simulation`: the whole tick, robbery escalation and the start-up world.

## Model

| member | source | states |
|---|---|---|
| Common.FirstMin | index.tsx:137-149 | the scan with a strict `<` returns nothing exactly when no element qualifies, and otherwise a qualifying element whose key is minimal and strictly below every earlier qualifying key |
| Common.FirstMinUnique | index.tsx:137-149 | the first minimum is unique, so any position with that property is the scan's answer |
| Common.ToBaseRoundTrip | index.tsx:259-264 | `n.toString(base)` (event ids, hash digits) reads back as `n` |
| Common.ToBaseWidth | index.tsx:266-270 | a number below `base^k` needs at most `k` digits, so padding a 32-bit magnitude to 8 hex digits never truncates |
| Common.LeadingZeros | index.tsx:266-270 | `padStart` with zeros does not change the value the digits denote |
| Common.ToFixed0 | index.tsx:1032 | `toFixed(0)` renders the nearest integer, halves rounded away from zero, with a `-` sign for negative inputs |
| RoadGraph.AdjacencyTable | index.tsx:119-135 | the adjacency list built by pushing both ends of every edge, in edge order, is exactly the table `Adj` |
| RoadGraph.AdjacencySymmetric | index.tsx:130-135 | `v` is a neighbour of `u` exactly when `u` is a neighbour of `v` |
| RoadGraph.GateIsolated | index.tsx:105-128 | the `gate` waypoint is in no edge: it has no neighbours and is no one's neighbour |
| RoadGraph.EdgeCostIsLength | index.tsx:186-188 | the integer edge cost is the Euclidean length of the edge |
| RoadGraph.SqrtSumLessCorrect | index.tsx:163-170 | the integer test used to compare `g + hypot` scores agrees with comparing the exact real values |
| RoadGraph.Relax | index.tsx:185-198 | relaxing the neighbours of the current node keeps the search invariant: every recorded parent is a neighbour with a strictly smaller g-score, and the parents lead back to the start |
| RoadGraph.Reconstruct | index.tsx:172-179 | following the parents yields a walk from the start to the current node |
| RoadGraph.SearchLoop | index.tsx:163-200 | any route the search loop returns starts at the start, ends at the goal, and steps only between neighbours |
| RoadGraph.FindPath | index.tsx:152-203 | `findPath(s, s)` is `[s]`, and any non-empty result is a walk from `s` to the goal along edges |
| RoadGraph.FindPathGateEmpty | index.tsx:152-203 | no route leads to or from the isolated `gate` waypoint |
| RoadGraph.NearestIndex | index.tsx:137-149 | the nearest waypoint has minimal distance, and ties go to the first waypoint in declaration order |
| RoadGraph.NearestNearGate | index.tsx:137-149 | any point within 1.5 of (50, 12) is nearest to `gate`, which comes before `n_central_cross`, the waypoint at the same spot |
| Ledger.Utf16Basic | index.tsx:266-270 | on the basic multilingual plane, `charCodeAt` yields one code unit per character, equal to its code point |
| Ledger.ToInt32 | index.tsx:266-270 | `hash &= hash` wraps into the signed 32-bit range and changes the value by a multiple of 2^32 |
| Ledger.StepIsTimes31 | index.tsx:266-270 | one step `(h << 5) - h + c` is `31h + c` modulo 2^32 |
| Ledger.RollIsPoly | index.tsx:266-270 | the rolling hash of a string is its base-31 polynomial modulo 2^32 |
| Ledger.HashFormat | index.tsx:266-270 | the hash text is `h` followed by exactly 8 lower-case hex digits that denote the magnitude of the 32-bit hash |
| Ledger.EmptyHash | index.tsx:266-270 | the hash of the empty string is `h00000000`, the same text used as the first block's previous hash |
| Ledger.CreateEvent | index.tsx:259-264 | an event's id is the clock reading in decimal, and its timestamp is the ISO time |
| Ledger.AddEvent | index.tsx:955-963 | appending adds exactly one block and keeps the earlier blocks; the new block names the last block's hash (or `h00000000` when the ledger is empty) and is sealed with the hash of its id, timestamp, description and previous hash |
| Ledger.AddEventKeepsChain | index.tsx:955-963 | appending keeps a ledger linked, sealed and well formed |
| Ledger.AddEventsKeepsChain | index.tsx:955-963 | a sequence of appends keeps the chain, keeps the old blocks, and records the events in order |
| Ledger.InitialLedger | index.tsx:1131-1143 | at start-up the stored ledger, or else the genesis block, is extended by the start-up event |
| Ledger.GenesisIsChain | index.tsx:1132 | the genesis block alone is a well-formed chain |
| Ledger.FreshLedgerIsChain | index.tsx:1131-1143 | a fresh start gives the genesis block followed by the start-up event, and that pair is a chain |
| Layout.SectorPoint | index.tsx:1204-1206 | a random patrol point of a sector lies inside that sector |
| Layout.BlockFeature | index.tsx:205-213 | an apartment starting with A/a maps to Residences A, one starting with B/C/D (either case) maps to Residences B, and any other apartment has no block |
| Layout.HomeLocation | index.tsx:205-222 | the home location is undefined exactly when the apartment has no block, and otherwise lies inside the block at least 5 from each edge |
| Layout.NearestLandmark | index.tsx:224-237 | the named landmark is the building, residence or amenity whose centre is nearest, the first one on ties |
| Layout.HomeNearestIsOwnBlock | index.tsx:205-237 | a resident's home location is nearest to the centre of their own block |
| Units.FindAnomaly | index.tsx:1224 | the anomaly found for a mission has the mission's description, and none is found exactly when no anomaly has that description |
| Units.Apprehend | index.tsx:1151-1167 | each tick in the arrest counts up without moving the unit; on the second tick the suspect is secured and the unit is released, the police car towards the gate and anyone else to patrol, with mission, route and counter cleared |
| Units.MissionPath | index.tsx:1171-1183 | a mission route is empty exactly when the road search fails; otherwise it is the searched waypoints' coordinates in order, followed by the target itself exactly when the last waypoint lies more than 1 from it, so it starts at the waypoint nearest the unit and ends within 1 of the target |
| Units.PatrolPath | index.tsx:1185-1192 | a random route is empty when the drawn waypoint is the one nearest the unit; otherwise it is the coordinates of the road search from the nearest waypoint to the drawn one, so any non-empty route runs between those two |
| Units.Plan | index.tsx:1170-1194 | planning only ever sets the route, and leaves drones, waiting police cars and units that already have a route alone; a road unit with no route gets the mission route when it has a target, a random route when it is patrolling, and nothing otherwise |
| Units.PlannedRoute | index.tsx:1170-1194 | a newly planned route starts at the waypoint nearest the unit, and ends within 1 of the mission target or, for a patrol, at the drawn waypoint |
| Units.BatteryStep | index.tsx:1200-1201 | charging adds 1.5 up to 100 and resumes patrol at 100; otherwise the battery drains 0.3 while tracking or observing and 0.1 else; a flat drone goes on charge at the base with no target; below 20 a drone heads home unless it is tracking or already heading home |
| Units.BatteryStaysInRange | index.tsx:1200-1201 | a battery in [0, 100] stays in [0, 100] |
| Units.ObservationStep | index.tsx:1202 | an observation started at a non-zero time more than 8000 ms ago ends, with the drone patrolling and its detections and description cleared; a drone that is not observing drops its detections |
| Units.Detect | index.tsx:1235 | a drone detects one to three entities, each inside the 60-by-60 middle square, with ids `de<now><i>` |
| Units.DroneHeading | index.tsx:1203-1209 | a drone heading home aims at the base; a patrolling drone with no heading gets a random point; no other drone's heading changes |
| Units.Speed | index.tsx:1240-1242 | the fraction of the distance covered per tick lies strictly between 0 and 1 |
| Units.LerpContracts | index.tsx:1243 | a step shrinks the squared distance to the target by the factor `(1 - speed)^2` |
| Units.Arrive | index.tsx:1218-1238 | on arrival a unit keeps its identity and kind, just drops the reached point while more route remains, only ever stays put or goes off the map, and keeps its status admissible for its kind; at the end of the route the returning police car parks off the map, a robbery responder starts apprehending in place, and otherwise the mission and route are cleared: a patrolling or tracking drone starts observing from now with fresh detections, a drone heading home goes on charge, other drones keep their status, and any other unit resumes patrolling |
| Units.Advance | index.tsx:1214-1244 | without a heading nothing changes; out of reach of the heading (1.5) the unit only moves, by linear interpolation at its speed; within reach it arrives instead, and stays put or goes off the map |
| Units.StepUnit | index.tsx:1148-1247 | a tick keeps a unit's id, name and kind, and secures only an anomaly from the list, and only from a unit that was apprehending |
| Units.ApprehensionTakesTwoTicks | index.tsx:1151-1167 | an apprehension that starts at 0 counts one tick and completes on the second, with the unit in place |
| Units.InvestigatorResumesPatrol | index.tsx:1218-1236 | a guard or vehicle that reaches the end of an investigation route resumes patrolling in place, with mission and route cleared |
| Units.TrackingDroneObserves | index.tsx:1200-1234 | a tracking drone with charge to spare that reaches the end of its route starts observing in place from now, reports its detections, and has paid one tick of tracking drain |
| Units.RespondingUnitApprehends | index.tsx:1228-1229 | a unit responding to a robbery that reaches its last route point starts apprehending where it stands, with the counter at 0 |
| Units.PoliceReturnsOffMap | index.tsx:1226-1227 | the police car heading back that reaches the gate goes to the off-map station and waits |
| Units.StationaryPoliceWaits | index.tsx:1170 | a waiting police car with no mission does not move |
| Units.PatrolStuckAtGate | index.tsx:1185-1192 | a patrolling unit standing exactly on the gate never gets a route, because `gate` is isolated |
| Units.DroneRunsFlat | index.tsx:1196-1201 | a drone that runs flat is put on charge at the base, but moves towards its old heading in the same tick |
| Units.StepKeepsBatteryInRange | index.tsx:1199-1201 | a tick keeps a drone's battery in [0, 100] |
| Units.StepKeepsStatusFits | index.tsx:1148-1247 | a tick never gives a unit a status its kind does not admit |
| Dispatch.LogKeepsWorldOk | index.tsx:955-963 | recording an event keeps the world invariant, including the ledger chain |
| Dispatch.UpdateOnlyChosen | index.tsx:993-998 | with unique ids, updating by id changes only the chosen unit |
| Dispatch.ClosestAvailableDrone | index.tsx:966-980 | there is no drone exactly when no drone is patrolling, heading home or observing; otherwise the result is such a drone at minimal distance, the first one on ties |
| Dispatch.AssignDrone | index.tsx:982-999 | without an available drone nothing changes; otherwise one drone event is logged and the closest drone is set to tracking the target |
| Dispatch.AssignDroneOnlyChosen | index.tsx:982-999 | only the closest available drone changes: it becomes tracking, with the given target and description |
| Dispatch.AssignDroneKeepsWorldOk | index.tsx:982-999 | assigning a drone keeps the world invariant |
| Dispatch.FlagPerson | index.tsx:1001-1018 | the closest available drone starts observing the target, with its observation clock set to now |
| Dispatch.FlagPersonOnlyChosen | index.tsx:1001-1018 | only that drone changes; it keeps its location and is observing the target, with the given description, from now on |
| Dispatch.FlagPersonKeepsWorldOk | index.tsx:1001-1018 | flagging keeps the world invariant |
| Dispatch.ClosestStation | index.tsx:1021-1028 | the chosen station is the one nearest the target, the first on ties; there is none only when there are no stations |
| Dispatch.ActivateDeterrent | index.tsx:1020-1036 | units and anomalies are untouched; when the nearest station has a non-empty id, one event is logged and every station with that id is stamped with the current time |
| Dispatch.DeterrentOnlyNearest | index.tsx:1020-1036 | with distinct station ids, only the nearest station's activation time changes |
| Dispatch.DeterrentKeepsWorldOk | index.tsx:1020-1036 | firing a deterrent keeps the world invariant |
| Dispatch.ClosestPatrol | index.tsx:1040-1052 | the chosen patrol is a patrolling guard or vehicle at minimal distance, first on ties; there is none exactly when none is patrolling |
| Dispatch.AssignPatrol | index.tsx:1038-1065 | without an available patrol nothing changes; otherwise one patrol event is logged and that unit takes the status, target and description with an empty route |
| Dispatch.AssignPatrolOnlyChosen | index.tsx:1038-1065 | only the closest patrolling guard or vehicle changes |
| Dispatch.AssignPatrolKeepsWorldOk | index.tsx:1038-1065 | dispatching a patrol with a patrol-unit status keeps the world invariant |
| Dispatch.DispatchPolice | index.tsx:1067-1085 | a waiting first police car is logged and enters at the main gate, responding; otherwise the closest patrol is sent, responding |
| Dispatch.DispatchPoliceOnlyPolice | index.tsx:1067-1085 | when the police car was waiting, it is the only unit changed: it is responding at the main gate with the target |
| Dispatch.DispatchPoliceKeepsWorldOk | index.tsx:1067-1085 | sending the police keeps the world invariant |
| Dispatch.TriggerBreach | index.tsx:1087-1094 | raising the protocol while it is up does nothing; otherwise it logs one breach event, records the details and raises the protocol, leaving units and stations alone |
| Dispatch.TriggerBreachIdempotent | index.tsx:1087-1094 | raising the protocol twice is the same as raising it once |
| Dispatch.TriggerBreachKeepsWorldOk | index.tsx:1087-1094 | raising the protocol keeps the world invariant |
| Dispatch.AutonomousResponse | index.tsx:1096-1125 | a low threat changes nothing; a high threat always leaves the protocol up; which units each threat moves is stated by the routing lemmas below, and which stations fire by HighFiresNearestStation and MediumFiresNearestStation |
| Dispatch.AutonomousResponseFacts | index.tsx:1096-1125 | the anomalies and reports are kept and the ledger only grows; a high threat records its details if the protocol was down, and other threats leave the protocol alone; residents are warned exactly for a high-threat robbery |
| Dispatch.HighResponseFacts | index.tsx:1098-1115 | a high threat records its details when the protocol was down, posts the alert naming the nearest landmark for a robbery, and only extends the ledger; the units it moves are stated by the four High* routing lemmas |
| Dispatch.TrackClosestKeepsChoices | index.tsx:1098-1115 | tasking the drone changes neither which police car comes first, nor whether it waits, nor which patrol is closest, so the later steps choose as they would on the original fleet |
| Dispatch.HighTracksClosestDrone | index.tsx:1098-1100 | with distinct ids, a high threat sets the closest available drone to tracking the threat's location and description |
| Dispatch.HighRobberySendsPolice | index.tsx:1102-1103 | with distinct ids, a high-threat robbery brings the first police car, when it waits off the map, to the main gate, responding to the threat |
| Dispatch.HighSendsClosestPatrol | index.tsx:1098-1115 | with distinct ids, a high threat that is no robbery, or a robbery with no police car waiting, sets the closest patrolling guard or vehicle responding to the threat |
| Dispatch.HighChangesNoOtherUnit | index.tsx:1098-1115 | with distinct ids, a high threat changes no unit besides the closest available drone and either the waiting police car or the closest patrol |
| Dispatch.MediumResponseFacts | index.tsx:1116-1120 | a medium threat leaves the protocol, the chat and the anomalies alone and only extends the ledger |
| Dispatch.MediumSendsClosestPatrol | index.tsx:1116-1120 | with distinct ids, a medium threat sends the closest patrolling guard or vehicle to "investigate area", investigating, and changes no other unit; with no patrol out no unit changes |
| Dispatch.HighFiresNearestStation | index.tsx:1098-1115 | with distinct station ids, a high threat stamps the nearest station with the current time (unless its id is empty) and no other station; with no station the stations are unchanged |
| Dispatch.HighResponseStations | index.tsx:1098-1115 | breach, drone and the final police or patrol step leave the stations alone, so the response's stations are those of the deterrent step alone |
| Dispatch.HighLastStepStations | index.tsx:1102-1114 | dispatching police or a responding patrol never changes a station |
| Dispatch.MediumFiresNearestStation | index.tsx:1116-1120 | with distinct station ids, a medium threat stamps the nearest station with the current time (unless its id is empty) and no other station |
| Dispatch.AutonomousResponseKeepsWorldOk | index.tsx:1096-1125 | every response keeps the world invariant |
| Dispatch.RespondAllFacts | index.tsx:1338-1343 | answering a list of anomalies keeps the anomalies and reports, only extends the ledger, and leaves the protocol up exactly when it was up or some anomaly is high |
| Dispatch.IngestLowOnly | index.tsx:1338-1343 | a batch of low threats is only recorded |
| Dispatch.RespondAllKeepsWorldOk | index.tsx:1338-1343 | answering every anomaly in turn keeps the world invariant |
| Dispatch.IngestFacts | index.tsx:1338-1343 | after ingesting, the anomaly list is the new batch, the invariant holds, and the protocol is up exactly when it was up or the batch has a high threat |
| Dispatch.EndBreach | index.tsx:1345-1361 | refused while breach details are set or a robbery is listed; otherwise it logs one system event, lowers the protocol, sends the police car to wait off the map, sets everyone else patrolling in place, clears all missions and the routes of police cars, guards and vehicles while drones keep theirs, and keeps ids, names and kinds (so batteries too) |
| Dispatch.EndBreachTwice | index.tsx:1345-1361 | ending the protocol a second time logs again but moves no unit |
| Dispatch.EndBreachKeepsWorldOk | index.tsx:1345-1361 | ending the protocol keeps the world invariant |
| Dispatch.AutoEndBreach | index.tsx:1363-1368 | with no robbery listed and no breach details, a raised protocol is lowered; with details still set it stays up; otherwise nothing changes |
| Dispatch.AutoEndBreachKeepsWorldOk | index.tsx:1363-1368 | the automatic end keeps the world invariant |
| Simulation.RemoveDescribed | index.tsx:1156 | filtering keeps exactly the anomalies with a different description |
| Simulation.RemoveAbsent | index.tsx:1156 | filtering out a description nobody has leaves the list as it is |
| Simulation.SecureFacts | index.tsx:1153-1160 | securing suspects touches only the anomalies, the ledger (one event per suspect) and the breach details |
| Simulation.SecureClears | index.tsx:1153-1160 | securing adds no anomaly, and no anomaly survives that shares a secured anomaly's description |
| Simulation.SecureDropsDetails | index.tsx:1159 | the breach details are cleared exactly when some suspect was secured in the tick |
| Simulation.SecureKeepsWorldOk | index.tsx:1153-1160 | securing keeps the world invariant |
| Simulation.TickKeepsWorldOk | index.tsx:1148-1248 | the units' tick keeps the world invariant and every unit's id and name, leaves the protocol flag alone, and only extends the ledger |
| Simulation.Escalate | index.tsx:1250-1259 | nothing happens unless the draw fires, no robbery was listed at the start of the tick, and some report mentions "Suspicious" |
| Simulation.EscalateFires | index.tsx:1250-1259 | when it fires, the robbery is appended to the anomalies, the protocol is up, the residents are alerted about the report's location, and the first suspicious report is removed |
| Simulation.EscalateKeepsWorldOk | index.tsx:1250-1259 | escalation keeps the world invariant |
| Simulation.RoundKeepsWorldOk | index.tsx:1148-1259 | the whole interval body keeps the world invariant |
| Simulation.StartDroneOk | index.tsx:1140 | a start-up drone is patrolling and well formed, with its battery in [80, 100) |
| Simulation.InitialUnits | index.tsx:1135-1141 | the start-up fleet has nine units with distinct ids; the last six are patrolling drones with batteries in [80, 100) |
| Simulation.DroneIdsDistinct | index.tsx:1140 | the ids `d1` … `d6` are pairwise distinct |
| Simulation.InitialWorldOk | index.tsx:1127-1144 | a fresh start satisfies the world invariant: unique unit and station ids, admissible statuses, batteries in range and a chained ledger |

The world invariant `Dispatch.WorldOk` has four parts:

- unit ids are unique;
- every unit's status is one its kind admits, and every drone's battery lies in [0, 100];
- deterrent station ids are unique;
- the ledger is linked, well formed and sealed from its second block on. The genesis
  block is sealed with the hash of the text `Genesis Block`, not with the hash of its
  own contents.

## Left out

- Rendering, notifications, speech, camera, the Gemini calls and `localStorage`.
  - These are presentation or external I/O.
  - The model receives detected anomalies as an input list.
  - It receives the stored ledger as a parameter of `InitialLedger`.
- React batching and stale closures are replaced by sequential composition.
  - Every `set*` updater is applied in call order.
  - When several anomalies arrive in one batch, each response here sees the previous
    response's units. In the running program, `handleActivateDeterrent` and the
    `isBreachProtocolActive` check read the state from the last render.
  - Likewise, `handleDispatchPolice` calls `handleAssignPatrol` from inside a state
    updater, and that is treated as a plain call.
- There is one clock reading per operation. The source calls `Date.now()` separately
  for the event id, the station stamp and the observation start. Within one
  operation those readings can differ by a millisecond.
- `Math.random` and `Date.now` are parameters: `Draws`, `fires`, `rs` and `Clock`.
- IEEE-754 arithmetic, `Math.hypot` and `Math.sqrt` are not modelled.
  - Coordinates are exact reals. Distances are compared on their squares, with the
    1.5 arrival threshold as 2.25.
  - The A* `g + h` comparison is exact, so floating-point ties that round differently
    are not modelled.
- RoadGraph.SearchLoop: the A* loop runs under a fuel bound of 100 iterations, far
  above the ten waypoints.
  - Its contract states soundness of any returned route only.
  - Completeness (a route is found whenever one exists) and optimality are not proved.
- Ledger.HashFormat: the 32-bit wrap-around is written out on unbounded integers
  (`ToInt32`) rather than as `bv32`. The value is the same.
- Layout.NearestLandmark: the fallback text `the community` is never produced. The
  landmark list is never empty, so it is not modelled.
- Dispatch.ActivateDeterrent: a station is chosen only among the stations passed in.
  The source chooses from the render-time list and stamps the latest list (see
  stale closures above).
- Chat noise, report generation, biometric drift and family/system refresh
  (index.tsx:1261-1291) are stochastic world events. Only the robbery escalation is
  modelled.
- The resident-side handlers are not part of this model. These are registration,
  access simulation, panic phrase, SOS and the report form.
- The routing lemmas of the autonomous response assume distinct unit ids, which the
  world invariant keeps. The source updates units by id, so with a duplicated id every
  unit sharing it would change too.
- Notifications produced by the commands (for example the "No drones available"
  warning and the low-threat notice) are not modelled. The commands' state effects
  are.

=== FILE: Common.dfy ===
/** Shared vocabulary of the model: optional values, points on the campus
    plane, the first-minimum scan every "closest X" lookup performs, and the
    numeral renderings of numbers that appear in audit texts and hashes. */
module Common {

  /** An optional value; stands for a field that may be `undefined`. */
  datatype Option<+T> = None | Some(value: T)

  /** A coordinate on the campus plane, in percent of the map's extent. */
  datatype Point = Point(x: real, y: real)

  /** Squared Euclidean distance. Every distance comparison of the system is
      a comparison of `Math.hypot` values, which is monotone in this square,
      so no square root is needed. */
  function DistSq(a: Point, b: Point): (d: real)
    ensures d >= 0.0
    ensures a == b ==> d == 0.0
  {
    (a.x - b.x) * (a.x - b.x) + (a.y - b.y) * (a.y - b.y)
  }

  /** `k` is the position the source's scan picks: an admissible element with
      the smallest key, and the first such one, because the scan only
      replaces its candidate on a strictly smaller key. */
  predicate IsFirstMin<T>(xs: seq<T>, ok: T -> bool, key: T -> real, k: nat)
  {
    && k < |xs|
    && ok(xs[k])
    && (forall j | 0 <= j < |xs| && ok(xs[j]) :: key(xs[k]) <= key(xs[j]))
    && (forall j | 0 <= j < k && ok(xs[j]) :: key(xs[k]) < key(xs[j]))
  }

  /** The scan `let best = null, min = Infinity; for (x of xs.filter(ok))
      if (key(x) < min) { min = key(x); best = x }` as a position in `xs`. */
  function FirstMin<T>(xs: seq<T>, ok: T -> bool, key: T -> real): (r: Option<nat>)
    ensures r.None? <==> (forall j | 0 <= j < |xs| :: !ok(xs[j]))
    ensures r.Some? ==> IsFirstMin(xs, ok, key, r.value)
  {
    FirstMinFrom(xs, ok, key, 0, None)
  }

  /** One step of the scan per position; `best` is the candidate so far. */
  function FirstMinFrom<T>(xs: seq<T>, ok: T -> bool, key: T -> real, i: nat, best: Option<nat>): (r: Option<nat>)
    requires i <= |xs|
    requires best.None? ==> (forall j | 0 <= j < i :: !ok(xs[j]))
    requires best.Some? ==> best.value < i && IsFirstMin(xs[..i], ok, key, best.value)
    ensures r.None? <==> (forall j | 0 <= j < |xs| :: !ok(xs[j]))
    ensures r.Some? ==> IsFirstMin(xs, ok, key, r.value)
    decreases |xs| - i
  {
    if i == |xs| then
      assert xs[..i] == xs;
      best
    else
      FirstMinStep(xs, ok, key, i, best);
      if ok(xs[i]) && (best.None? || key(xs[i]) < key(xs[best.value])) then
        FirstMinFrom(xs, ok, key, i + 1, Some(i))
      else
        FirstMinFrom(xs, ok, key, i + 1, best)
  }

  /** One step of the scan keeps its candidate the first minimum of the
      prefix scanned so far. */
  lemma FirstMinStep<T>(xs: seq<T>, ok: T -> bool, key: T -> real, i: nat, best: Option<nat>)
    requires i < |xs|
    requires best.None? ==> (forall j | 0 <= j < i :: !ok(xs[j]))
    requires best.Some? ==> best.value < i && IsFirstMin(xs[..i], ok, key, best.value)
    ensures if ok(xs[i]) && (best.None? || key(xs[i]) < key(xs[best.value]))
            then IsFirstMin(xs[..i + 1], ok, key, i)
            else && (best.None? ==> forall j | 0 <= j < i + 1 :: !ok(xs[j]))
                 && (best.Some? ==> IsFirstMin(xs[..i + 1], ok, key, best.value))
  {
    var ys := xs[..i + 1];
    assert forall j | 0 <= j < i :: xs[..i][j] == xs[j];
    assert forall j | 0 <= j <= i :: ys[j] == xs[j];
  }

  /** The scan's choice is determined: at most one position is the first
      minimum. */
  lemma FirstMinUnique<T>(xs: seq<T>, ok: T -> bool, key: T -> real, a: nat, b: nat)
    requires IsFirstMin(xs, ok, key, a) && IsFirstMin(xs, ok, key, b)
    ensures a == b
  {
  }

  /** The first position whose element satisfies `ok` (`Array.find`). */
  function FirstWhere<T>(xs: seq<T>, ok: T -> bool): (r: Option<nat>)
    ensures r.None? <==> (forall j | 0 <= j < |xs| :: !ok(xs[j]))
    ensures r.Some? ==> r.value < |xs| && ok(xs[r.value])
                        && (forall j | 0 <= j < r.value :: !ok(xs[j]))
  {
    if |xs| == 0 then None
    else if ok(xs[0]) then Some(0)
    else match FirstWhere(xs[1..], ok)
      case None => None
      case Some(k) => Some(k + 1)
  }

  /** The search depends only on which positions satisfy `ok`. */
  lemma FirstWhereAgrees<T>(xs: seq<T>, ys: seq<T>, ok: T -> bool)
    requires |xs| == |ys|
    requires forall i | 0 <= i < |xs| :: ok(xs[i]) == ok(ys[i])
    ensures FirstWhere(xs, ok) == FirstWhere(ys, ok)
  {
    var a, b := FirstWhere(xs, ok), FirstWhere(ys, ok);
    if a.Some? && b.Some? {
      assert ok(ys[a.value]) && ok(xs[b.value]);
    }
  }

  /** The value of a lower-case numeral character, or -1 for any other
      character. */
  function NumeralValue(c: char): int
  {
    if '0' <= c <= '9' then c as int - '0' as int
    else if 'a' <= c <= 'f' then c as int - 'a' as int + 10
    else -1
  }

  predicate IsNumeral(c: char, base: nat) { 0 <= NumeralValue(c) < base }

  predicate AllNumerals(s: string, base: nat)
  {
    forall i | 0 <= i < |s| :: IsNumeral(s[i], base)
  }

  /** The lower-case numeral for a digit value. */
  function NumeralChar(d: nat): (c: char)
    requires d < 16
    ensures NumeralValue(c) == d
  {
    "0123456789abcdef"[d]
  }

  /** `n.toString(base)` for a non-negative integer: lower-case digits and
      no leading zeros. */
  function ToBase(n: nat, base: nat): (s: string)
    requires 2 <= base <= 16
    ensures 1 <= |s|
    ensures AllNumerals(s, base)
    ensures |s| > 1 ==> s[0] != '0'
    ensures n > 0 ==> s[0] != '0'
  {
    if n < base then [NumeralChar(n)]
    else
      DivBounds(n, base);
      ToBase(n / base, base) + [NumeralChar(n % base)]
  }

  lemma DivBounds(n: nat, b: nat)
    requires 2 <= b <= n
    ensures 1 <= n / b < n && n % b < b
  {
    DivMod(n, b);
  }

  /** The number a string of numerals denotes in `base`. */
  function ValueOf(s: string, base: nat): nat
    requires AllNumerals(s, base)
  {
    if |s| == 0 then 0
    else base * ValueOf(s[..|s| - 1], base) + NumeralValue(s[|s| - 1])
  }

  /** Rendering a number loses nothing: reading it back gives it. */
  lemma {:induction false} ToBaseRoundTrip(n: nat, base: nat)
    requires 2 <= base <= 16
    ensures ValueOf(ToBase(n, base), base) == n
  {
    if n >= base {
      var s := ToBase(n, base);
      var q, d := n / base, n % base;
      DivMod(n, base);
      assert s[..|s| - 1] == ToBase(q, base);
      ToBaseRoundTrip(q, base);
    }
  }

  function Pow(b: nat, k: nat): (r: nat)
    ensures b >= 1 ==> r >= 1
  {
    if k == 0 then 1 else b * Pow(b, k - 1)
  }

  /** A number below `base^k` takes at most `k` numerals. */
  lemma {:induction false} ToBaseWidth(n: nat, base: nat, k: nat)
    requires 2 <= base <= 16 && 1 <= k && n < Pow(base, k)
    ensures |ToBase(n, base)| <= k
  {
    if n >= base {
      var q, p := n / base, Pow(base, k - 1);
      DivMod(n, base);
      if k == 1 {
        assert false;
      }
      if q >= p {
        MulLeft(base, p, q);
        assert false;
      }
      ToBaseWidth(q, base, k - 1);
    }
  }

  lemma DivMod(n: nat, b: nat)
    requires b >= 2
    ensures n == b * (n / b) + n % b
    ensures n >= 1 ==> n / b < n
  {
    var q := n / b;
    MulLeft(q, 2, b);
  }

  lemma MulLeft(b: nat, p: nat, q: nat)
    requires p <= q
    ensures b * p <= b * q
  {
  }

  /** Leading zeros do not change the value of a numeral string. */
  lemma {:induction false} LeadingZeros(z: nat, s: string, base: nat)
    requires 2 <= base && AllNumerals(s, base)
    ensures AllNumerals(seq(z, _ => '0') + s, base)
    ensures ValueOf(seq(z, _ => '0') + s, base) == ValueOf(s, base)
    decreases |s| + z
  {
    var t := seq(z, _ => '0') + s;
    if |s| > 0 {
      assert t[..|t| - 1] == seq(z, _ => '0') + s[..|s| - 1];
      LeadingZeros(z, s[..|s| - 1], base);
    } else if z > 0 {
      assert t[..|t| - 1] == seq(z - 1, _ => '0') + s;
      LeadingZeros(z - 1, s, base);
    }
  }

  /** `x.toFixed(0)`: the sign is written separately, and the magnitude is
      rounded to the nearest integer, halves upwards. */
  function ToFixed0(x: real): (s: string)
    ensures 1 <= |s|
    ensures x >= 0.0 ==> AllNumerals(s, 10) && ValueOf(s, 10) == (x + 0.5).Floor
    ensures x < 0.0 ==> s[0] == '-' && AllNumerals(s[1..], 10) && ValueOf(s[1..], 10) == (0.5 - x).Floor
  {
    if x < 0.0 then "-" + RoundHalfUp(-x) else RoundHalfUp(x)
  }

  function RoundHalfUp(x: real): (s: string)
    requires x >= 0.0
    ensures 1 <= |s| && AllNumerals(s, 10)
    ensures (x + 0.5).Floor == ValueOf(s, 10)
  {
    var n := (x + 0.5).Floor;
    ToBaseRoundTrip(n, 10);
    ToBase(n, 10)
  }

  /** Real multiplication behind a function symbol: the solver's arithmetic
      reasons about inequalities between named products more reliably. */
  ghost function Mul(a: real, b: real): real { a * b }

  lemma MulMonotone(a: real, b: real, c: real)
    requires 0.0 <= c && a <= b
    ensures Mul(a, c) <= Mul(b, c)
  {
  }

  lemma MulStrict(a: real, b: real, c: real)
    requires 0.0 < c && a < b
    ensures Mul(a, c) < Mul(b, c)
  {
  }

  /** A sum of two squares vanishes only when both terms do. */
  lemma SquaresZero(a: real, b: real)
    requires a * a + b * b == 0.0
    ensures a == 0.0 && b == 0.0
  {
    SquareSign(a);
    SquareSign(b);
    assert Mul(a, a) + Mul(b, b) == 0.0;
  }

  lemma SquareSign(a: real)
    ensures Mul(a, a) >= 0.0
    ensures Mul(a, a) == 0.0 ==> a == 0.0
  {
    if a > 0.0 {
      MulStrict(0.0, a, a);
    } else if a < 0.0 {
      MulStrict(0.0, -a, -a);
      assert Mul(-a, -a) == Mul(a, a);
    }
  }

  function Min(a: real, b: real): real { if a <= b then a else b }

  /** A draw of `Math.random()`. */
  predicate UnitInterval(r: real) { 0.0 <= r < 1.0 }

  /** `Math.floor(r * n)` for a random draw `r`: an index below `n`. */
  function PickIndex(r: real, n: nat): (i: nat)
    requires UnitInterval(r) && n > 0
    ensures i < n
    ensures i as real <= r * n as real < i as real + 1.0
  {
    var f := (r * n as real).Floor;
    assert 0.0 <= r * n as real < n as real;
    f
  }
}

=== FILE: Dispatch.dfy ===
/** The operator's and the autonomous controller's commands, each a
    transformation of the whole world: assigning and flagging with drones,
    the sonic deterrents, patrol and police dispatch, the emergency protocol
    and the response to a detected anomaly by its threat level. */
module Dispatch {
  import opened Common
  import opened Layout
  import opened Units
  import Ledger

  /** A message in the residents' chat. */
  datatype ChatMessage = ChatMessage(id: string, residentName: string, text: string, timestamp: string)

  /** A report a resident has filed. */
  datatype Report = Report(id: string, timestamp: string, location: Point, description: string)

  /** The state the commands read and write. */
  datatype World = World(
    units: seq<Unit>, anomalies: seq<Anomaly>, ledger: seq<Ledger.Block>, stations: seq<Station>,
    breachActive: bool, breachDetails: Option<Anomaly>, chat: seq<ChatMessage>, reports: seq<Report>)

  /** No two units share an id. */
  predicate UniqueIds(units: seq<Unit>)
  {
    forall i, j | 0 <= i < |units| && 0 <= j < |units| && units[i].id == units[j].id :: i == j
  }

  predicate UniqueStationIds(stations: seq<Station>)
  {
    forall i, j | 0 <= i < |stations| && 0 <= j < |stations| && stations[i].id == stations[j].id :: i == j
  }

  /** A unit is in a status its kind admits and, if it is a drone, its
      battery is between 0 and 100. */
  predicate UnitOk(u: Unit)
  {
    StatusFits(u.kind, u.status) && (u.kind.Drone? ==> 0.0 <= u.kind.battery <= FullBattery)
  }

  predicate UnitsOk(units: seq<Unit>)
  {
    UniqueIds(units) && forall i | 0 <= i < |units| :: UnitOk(units[i])
  }

  /** The invariant the commands keep: well-formed units, distinct station
      ids and a ledger that is a hash chain sealed after its first block. */
  predicate WorldOk(w: World)
  {
    && UnitsOk(w.units)
    && UniqueStationIds(w.stations)
    && |w.ledger| >= 1
    && Ledger.Chain(w.ledger, 1)
  }

  /** `addEvent(createEvent(kind, desc))`. */
  function Log(w: World, clock: Ledger.Clock, kind: Ledger.EventType, desc: string): (r: World)
    ensures r == w.(ledger := r.ledger)
    ensures |r.ledger| == |w.ledger| + 1 && r.ledger[..|w.ledger|] == w.ledger
    ensures r.ledger[|w.ledger|].event == Ledger.CreateEvent(clock, kind, desc)
  {
    w.(ledger := Ledger.AddEvent(w.ledger, Ledger.CreateEvent(clock, kind, desc)))
  }

  /** Logging keeps the invariant. */
  lemma LogKeepsWorldOk(w: World, clock: Ledger.Clock, kind: Ledger.EventType, desc: string)
    requires WorldOk(w)
    ensures WorldOk(Log(w, clock, kind, desc))
  {
    Ledger.AddEventKeepsChain(w.ledger, Ledger.CreateEvent(clock, kind, desc), 1);
  }

  function Prefix(autonomous: bool): string
  {
    if autonomous then "AUTONOMOUS: " else ""
  }

  /** The parts of the world that the unit and station commands leave alone. */
  predicate SameScene(a: World, b: World)
  {
    && a.anomalies == b.anomalies && a.breachActive == b.breachActive && a.breachDetails == b.breachDetails
    && a.chat == b.chat && a.reports == b.reports
  }

  /** The ledger only ever grows at its end. */
  predicate Extends(before: seq<Ledger.Block>, after: seq<Ledger.Block>)
  {
    |before| <= |after| && after[..|before|] == before
  }

  /** `prev.map(u => u.id === chosen && fits(u) ? change(u) : u)`. */
  function UpdateWhere(units: seq<Unit>, id: string, fits: Unit -> bool, change: Unit -> Unit): (r: seq<Unit>)
    ensures |r| == |units|
    ensures forall i | 0 <= i < |units| ::
              r[i] == if units[i].id == id && fits(units[i]) then change(units[i]) else units[i]
  {
    seq(|units|, i requires 0 <= i < |units| =>
      if units[i].id == id && fits(units[i]) then change(units[i]) else units[i])
  }

  /** With distinct ids, the update by id touches the chosen unit only. */
  lemma UpdateOnlyChosen(units: seq<Unit>, k: nat, fits: Unit -> bool, change: Unit -> Unit)
    requires UniqueIds(units) && k < |units|
    ensures var r := UpdateWhere(units, units[k].id, fits, change);
            && (forall i | 0 <= i < |units| && i != k :: r[i] == units[i])
            && r[k] == (if fits(units[k]) then change(units[k]) else units[k])
  {
  }

  /** An update that keeps ids and keeps each unit well formed keeps the
      units well formed. */
  lemma UpdateKeepsUnitsOk(units: seq<Unit>, id: string, fits: Unit -> bool, change: Unit -> Unit)
    requires UnitsOk(units)
    requires forall u: Unit | fits(u) && UnitOk(u) :: change(u).id == u.id && UnitOk(change(u))
    ensures UnitsOk(UpdateWhere(units, id, fits, change))
  {
    var r := UpdateWhere(units, id, fits, change);
    forall i, j | 0 <= i < |r| && 0 <= j < |r| && r[i].id == r[j].id
      ensures i == j
    {
      assert r[i].id == units[i].id && r[j].id == units[j].id;
    }
  }

  // --------------------------------------------------------------- drones

  /** A drone the dispatcher may task: patrolling, heading home, or
      observing. */
  predicate AvailableDrone(u: Unit)
  {
    u.kind.Drone? && u.status in {Patrolling, ReturningToBase, Observing}
  }

  /** `findClosestAvailableDrone`: the position of the available drone
      nearest to `target`, the first on ties; `None` when there is none. */
  function ClosestAvailableDrone(target: Point, units: seq<Unit>): (r: Option<nat>)
    ensures r.None? <==> forall i | 0 <= i < |units| :: !AvailableDrone(units[i])
    ensures r.Some? ==> IsFirstMin(units, AvailableDrone, (u: Unit) => DistSq(target, u.location), r.value)
  {
    FirstMin(units, AvailableDrone, (u: Unit) => DistSq(target, u.location))
  }

  function IsDrone(u: Unit): bool { u.kind.Drone? }

  /** The drone's new orders: track the target. */
  function Track(u: Unit, target: Point, description: string): Unit
  {
    u.(status := Tracking, missionTarget := Some(target), missionDescription := Some(description))
  }

  /** `handleAssignDrone`: the closest available drone starts tracking the
      target; without one nothing changes. */
  function AssignDrone(w: World, target: Point, description: string, autonomous: bool, clock: Ledger.Clock): (r: World)
    ensures SameScene(w, r) && Extends(w.ledger, r.ledger) && r.chat == w.chat
    ensures ClosestAvailableDrone(target, w.units).None? ==> r == w
    ensures ClosestAvailableDrone(target, w.units).Some? ==>
              var d := w.units[ClosestAvailableDrone(target, w.units).value];
              && r == Log(w, clock, Ledger.Drone, Prefix(autonomous) + d.name + " assigned to threat: " + description + ".")
                        .(units := r.units)
              && r.units == UpdateWhere(w.units, d.id, IsDrone, (u: Unit) => Track(u, target, description))
  {
    match ClosestAvailableDrone(target, w.units)
    case None => w
    case Some(k) =>
      var d := w.units[k];
      var w' := Log(w, clock, Ledger.Drone, Prefix(autonomous) + d.name + " assigned to threat: " + description + ".");
      w'.(units := UpdateWhere(w.units, d.id, IsDrone, (u: Unit) => Track(u, target, description)))
  }

  /** With distinct ids, assigning a drone retasks exactly the closest
      available drone and leaves every other unit as it was. */
  lemma AssignDroneOnlyChosen(w: World, target: Point, description: string, autonomous: bool, clock: Ledger.Clock)
    requires UniqueIds(w.units)
    requires ClosestAvailableDrone(target, w.units).Some?
    ensures var k := ClosestAvailableDrone(target, w.units).value;
            var r := AssignDrone(w, target, description, autonomous, clock);
            && |r.units| == |w.units|
            && (forall i | 0 <= i < |w.units| && i != k :: r.units[i] == w.units[i])
            && r.units[k] == w.units[k].(status := Tracking, missionTarget := Some(target),
                                          missionDescription := Some(description))
  {
    var k := ClosestAvailableDrone(target, w.units).value;
    UpdateOnlyChosen(w.units, k, IsDrone, (u: Unit) => Track(u, target, description));
  }

  lemma AssignDroneKeepsWorldOk(w: World, target: Point, description: string, autonomous: bool, clock: Ledger.Clock)
    requires WorldOk(w)
    ensures WorldOk(AssignDrone(w, target, description, autonomous, clock))
  {
    match ClosestAvailableDrone(target, w.units)
    case None =>
    case Some(k) =>
      var d := w.units[k];
      var w' := Log(w, clock, Ledger.Drone, Prefix(autonomous) + d.name + " assigned to threat: " + description + ".");
      var change := (u: Unit) => Track(u, target, description);
      assert AssignDrone(w, target, description, autonomous, clock) == w'.(units := UpdateWhere(w.units, d.id, IsDrone, change));
      LogKeepsWorldOk(w, clock, Ledger.Drone, Prefix(autonomous) + d.name + " assigned to threat: " + description + ".");
      TrackKeepsUnitOk(target, description);
      UpdateKeepsUnitsOk(w.units, d.id, IsDrone, change);
  }

  lemma TrackKeepsUnitOk(target: Point, description: string)
    ensures forall u: Unit | IsDrone(u) && UnitOk(u) ::
              Track(u, target, description).id == u.id && UnitOk(Track(u, target, description))
  {
  }

  /** `handleFlagPerson`: the closest available drone starts observing the
      target, its observation clock starting now. */
  function FlagPerson(w: World, target: Point, description: string, clock: Ledger.Clock): (r: World)
    ensures SameScene(w, r) && Extends(w.ledger, r.ledger) && r.chat == w.chat
    ensures ClosestAvailableDrone(target, w.units).None? ==> r == w
    ensures ClosestAvailableDrone(target, w.units).Some? ==>
              var d := w.units[ClosestAvailableDrone(target, w.units).value];
              && r == Log(w, clock, Ledger.Drone, d.name + " assigned to observe person of interest: " + description + ".")
                        .(units := r.units)
              && r.units == UpdateWhere(w.units, d.id, IsDrone, (u: Unit) => Observe(u, target, description, clock.now))
  {
    match ClosestAvailableDrone(target, w.units)
    case None => w
    case Some(k) =>
      var d := w.units[k];
      var w' := Log(w, clock, Ledger.Drone, d.name + " assigned to observe person of interest: " + description + ".");
      w'.(units := UpdateWhere(w.units, d.id, IsDrone, (u: Unit) => Observe(u, target, description, clock.now)))
  }

  function Observe(u: Unit, target: Point, description: string, now: int): Unit
  {
    if u.kind.Drone? then
      u.(status := Observing, missionTarget := Some(target), missionDescription := Some(description),
         kind := u.kind.(observationStart := Some(now)))
    else u
  }

  /** With distinct ids, flagging a person tasks exactly the closest
      available drone to observe, with its clock started now. */
  lemma FlagPersonOnlyChosen(w: World, target: Point, description: string, clock: Ledger.Clock)
    requires UniqueIds(w.units)
    requires ClosestAvailableDrone(target, w.units).Some?
    ensures var k := ClosestAvailableDrone(target, w.units).value;
            var r := FlagPerson(w, target, description, clock);
            && |r.units| == |w.units|
            && (forall i | 0 <= i < |w.units| && i != k :: r.units[i] == w.units[i])
            && r.units[k].status == Observing && r.units[k].missionTarget == Some(target)
            && r.units[k].missionDescription == Some(description)
            && r.units[k].kind.observationStart == Some(clock.now)
            && r.units[k].location == w.units[k].location
  {
    var k := ClosestAvailableDrone(target, w.units).value;
    UpdateOnlyChosen(w.units, k, IsDrone, (u: Unit) => Observe(u, target, description, clock.now));
  }

  lemma FlagPersonKeepsWorldOk(w: World, target: Point, description: string, clock: Ledger.Clock)
    requires WorldOk(w)
    ensures WorldOk(FlagPerson(w, target, description, clock))
  {
    match ClosestAvailableDrone(target, w.units)
    case None =>
    case Some(k) =>
      var d := w.units[k];
      var w' := Log(w, clock, Ledger.Drone, d.name + " assigned to observe person of interest: " + description + ".");
      var change := (u: Unit) => Observe(u, target, description, clock.now);
      assert FlagPerson(w, target, description, clock) == w'.(units := UpdateWhere(w.units, d.id, IsDrone, change));
      LogKeepsWorldOk(w, clock, Ledger.Drone, d.name + " assigned to observe person of interest: " + description + ".");
      ObserveKeepsUnitOk(target, description, clock.now);
      UpdateKeepsUnitsOk(w.units, d.id, IsDrone, change);
  }

  lemma ObserveKeepsUnitOk(target: Point, description: string, now: int)
    ensures forall u: Unit | IsDrone(u) && UnitOk(u) ::
              Observe(u, target, description, now).id == u.id && UnitOk(Observe(u, target, description, now))
  {
  }

  // ----------------------------------------------------------- deterrents

  /** The position of the station nearest to `target`, the first on ties. */
  function ClosestStation(target: Point, stations: seq<Station>): (r: Option<nat>)
    ensures r.None? <==> |stations| == 0
    ensures r.Some? ==> IsFirstMin(stations, (s: Station) => true, (s: Station) => DistSq(s.location, target), r.value)
  {
    FirstMin(stations, (s: Station) => true, (s: Station) => DistSq(s.location, target))
  }

  /** `handleActivateDeterrent`: the nearest station fires and the firing is
      logged. An empty station id counts as "no station", as in the source's
      truthiness test. */
  function ActivateDeterrent(w: World, target: Point, autonomous: bool, clock: Ledger.Clock): (r: World)
    ensures SameScene(w, r) && Extends(w.ledger, r.ledger) && r.chat == w.chat
    ensures r.units == w.units && r.anomalies == w.anomalies && r.breachActive == w.breachActive
    ensures |r.stations| == |w.stations|
    ensures match ClosestStation(target, w.stations)
            case None => r == w
            case Some(k) =>
              if w.stations[k].id == "" then r == w
              else
                && |r.ledger| == |w.ledger| + 1
                && forall i | 0 <= i < |w.stations| ::
                     r.stations[i] == if w.stations[i].id == w.stations[k].id
                                      then w.stations[i].(lastActivated := clock.now) else w.stations[i]
  {
    match ClosestStation(target, w.stations)
    case None => w
    case Some(k) =>
      var id := w.stations[k].id;
      if id == "" then w
      else
        var w' := Log(w, clock, Ledger.Deterrent,
                      Prefix(autonomous) + "Sonic deterrent activated near [" + ToFixed0(target.x) + ", " + ToFixed0(target.y) + "]");
        w'.(stations := Stamp(w.stations, id, clock.now))
  }

  /** Every station with the given id records a firing at `now`. */
  function Stamp(stations: seq<Station>, id: string, now: int): (r: seq<Station>)
    ensures |r| == |stations|
    ensures forall i | 0 <= i < |stations| :: r[i].id == stations[i].id && r[i].location == stations[i].location
  {
    seq(|stations|, i requires 0 <= i < |stations| =>
      if stations[i].id == id then stations[i].(lastActivated := now) else stations[i])
  }

  /** With distinct station ids, exactly the nearest station fires; every
      other station is left as it was. */
  lemma DeterrentOnlyNearest(w: World, target: Point, autonomous: bool, clock: Ledger.Clock)
    requires UniqueStationIds(w.stations)
    requires ClosestStation(target, w.stations).Some?
    ensures var k := ClosestStation(target, w.stations).value;
            var r := ActivateDeterrent(w, target, autonomous, clock);
            && (forall i | 0 <= i < |w.stations| && i != k :: r.stations[i] == w.stations[i])
            && r.stations[k].lastActivated == (if w.stations[k].id == "" then w.stations[k].lastActivated else clock.now)
  {
  }

  lemma DeterrentKeepsWorldOk(w: World, target: Point, autonomous: bool, clock: Ledger.Clock)
    requires WorldOk(w)
    ensures WorldOk(ActivateDeterrent(w, target, autonomous, clock))
  {
    match ClosestStation(target, w.stations)
    case None =>
    case Some(k) =>
      if w.stations[k].id != "" {
        var desc := Prefix(autonomous) + "Sonic deterrent activated near [" + ToFixed0(target.x) + ", " + ToFixed0(target.y) + "]";
        var stamped := Stamp(w.stations, w.stations[k].id, clock.now);
        assert ActivateDeterrent(w, target, autonomous, clock) == Log(w, clock, Ledger.Deterrent, desc).(stations := stamped);
        LogKeepsWorldOk(w, clock, Ledger.Deterrent, desc);
      }
  }

  // -------------------------------------------------------------- patrols

  /** A patrol that may be dispatched: a guard or vehicle out patrolling. */
  predicate AvailablePatrol(u: Unit)
  {
    (u.kind.Guard? || u.kind.Vehicle?) && u.status == Patrolling
  }

  function IsGuardOrVehicle(u: Unit): bool { u.kind.Guard? || u.kind.Vehicle? }

  function ClosestPatrol(target: Point, units: seq<Unit>): (r: Option<nat>)
    ensures r.None? <==> forall i | 0 <= i < |units| :: !AvailablePatrol(units[i])
    ensures r.Some? ==> IsFirstMin(units, AvailablePatrol, (u: Unit) => DistSq(target, u.location), r.value)
  {
    FirstMin(units, AvailablePatrol, (u: Unit) => DistSq(target, u.location))
  }

  /** The choice of patrol depends only on which units are patrolling
      guards or vehicles, and where those are. */
  lemma ClosestPatrolAgrees(target: Point, us: seq<Unit>, vs: seq<Unit>)
    requires |us| == |vs|
    requires forall i | 0 <= i < |us| ::
               AvailablePatrol(us[i]) == AvailablePatrol(vs[i])
               && (AvailablePatrol(us[i]) ==> us[i].location == vs[i].location)
    ensures ClosestPatrol(target, us) == ClosestPatrol(target, vs)
  {
    var a, b := ClosestPatrol(target, us), ClosestPatrol(target, vs);
    if a.Some? {
      assert b.Some?;
      FirstMinUnique(vs, AvailablePatrol, (u: Unit) => DistSq(target, u.location), a.value, b.value);
    }
  }

  /** The statuses a patrol can be dispatched with. */
  predicate PatrolStatus(s: Status)
  {
    s in {Patrolling, Stationary, Responding, Investigating, Apprehending, ReturningToStation}
  }

  /** `handleAssignPatrol`: the closest patrolling guard or vehicle takes
      the mission with the given status and a fresh route. */
  function AssignPatrol(w: World, target: Point, description: string, status: Status, autonomous: bool, clock: Ledger.Clock): (r: World)
    ensures SameScene(w, r) && Extends(w.ledger, r.ledger) && r.chat == w.chat
    ensures ClosestPatrol(target, w.units).None? ==> r == w
    ensures ClosestPatrol(target, w.units).Some? ==>
              var p := w.units[ClosestPatrol(target, w.units).value];
              && r == Log(w, clock, Ledger.Patrol, Prefix(autonomous) + p.name + " assigned to " + description + ".")
                        .(units := r.units)
              && r.units == UpdateWhere(w.units, p.id, IsGuardOrVehicle, (u: Unit) => Dispatched(u, target, description, status))
  {
    match ClosestPatrol(target, w.units)
    case None => w
    case Some(k) =>
      var p := w.units[k];
      var w' := Log(w, clock, Ledger.Patrol, Prefix(autonomous) + p.name + " assigned to " + description + ".");
      w'.(units := UpdateWhere(w.units, p.id, IsGuardOrVehicle, (u: Unit) => Dispatched(u, target, description, status)))
  }

  function Dispatched(u: Unit, target: Point, description: string, status: Status): Unit
  {
    u.(status := status, missionTarget := Some(target), missionDescription := Some(description), path := [])
  }

  /** With distinct ids, dispatching a patrol changes exactly the closest
      patrolling guard or vehicle. */
  lemma AssignPatrolOnlyChosen(w: World, target: Point, description: string, status: Status, autonomous: bool, clock: Ledger.Clock)
    requires UniqueIds(w.units)
    requires ClosestPatrol(target, w.units).Some?
    ensures var k := ClosestPatrol(target, w.units).value;
            var r := AssignPatrol(w, target, description, status, autonomous, clock);
            && |r.units| == |w.units|
            && (forall i | 0 <= i < |w.units| && i != k :: r.units[i] == w.units[i])
            && r.units[k] == Dispatched(w.units[k], target, description, status)
            && AvailablePatrol(w.units[k])
  {
    var k := ClosestPatrol(target, w.units).value;
    UpdateOnlyChosen(w.units, k, IsGuardOrVehicle, (u: Unit) => Dispatched(u, target, description, status));
  }

  lemma AssignPatrolKeepsWorldOk(w: World, target: Point, description: string, status: Status, autonomous: bool, clock: Ledger.Clock)
    requires WorldOk(w) && PatrolStatus(status)
    ensures WorldOk(AssignPatrol(w, target, description, status, autonomous, clock))
  {
    match ClosestPatrol(target, w.units)
    case None =>
    case Some(k) =>
      var p := w.units[k];
      var w' := Log(w, clock, Ledger.Patrol, Prefix(autonomous) + p.name + " assigned to " + description + ".");
      var change := (u: Unit) => Dispatched(u, target, description, status);
      assert AssignPatrol(w, target, description, status, autonomous, clock) ==
             w'.(units := UpdateWhere(w.units, p.id, IsGuardOrVehicle, change));
      LogKeepsWorldOk(w, clock, Ledger.Patrol, Prefix(autonomous) + p.name + " assigned to " + description + ".");
      DispatchedKeepsUnitOk(target, description, status);
      UpdateKeepsUnitsOk(w.units, p.id, IsGuardOrVehicle, change);
  }

  lemma DispatchedKeepsUnitOk(target: Point, description: string, status: Status)
    requires PatrolStatus(status)
    ensures forall u: Unit | IsGuardOrVehicle(u) && UnitOk(u) ::
              Dispatched(u, target, description, status).id == u.id && UnitOk(Dispatched(u, target, description, status))
  {
  }

  // --------------------------------------------------------------- police

  function IsPolice(u: Unit): bool { u.kind.Police? }

  /** `handleDispatchPolice`: the first police unit, if it is waiting off
      the map, enters at the main gate and responds; otherwise the closest
      patrol responds in its place. */
  function DispatchPolice(w: World, target: Point, description: string, clock: Ledger.Clock): (r: World)
    ensures SameScene(w, r) && Extends(w.ledger, r.ledger) && r.chat == w.chat
    ensures match FirstWhere(w.units, IsPolice)
            case Some(k) =>
              if w.units[k].status == Stationary then
                && |r.ledger| == |w.ledger| + 1
                && r.units == UpdateWhere(w.units, w.units[k].id, (u: Unit) => true,
                                          (u: Unit) => Entering(u, target, description))
              else r == AssignPatrol(w, target, description, Responding, true, clock)
            case None => r == AssignPatrol(w, target, description, Responding, true, clock)
  {
    match FirstWhere(w.units, IsPolice)
    case Some(k) =>
      var p := w.units[k];
      if p.status == Stationary then
        var w' := Log(w, clock, Ledger.Patrol, "Police unit " + p.name + " dispatched to incident, entering via Main Gate.");
        w'.(units := UpdateWhere(w.units, p.id, (u: Unit) => true, (u: Unit) => Entering(u, target, description)))
      else AssignPatrol(w, target, description, Responding, true, clock)
    case None => AssignPatrol(w, target, description, Responding, true, clock)
  }

  function Entering(u: Unit, target: Point, description: string): Unit
  {
    u.(status := Responding, location := MainGateEntrance, missionTarget := Some(target),
       missionDescription := Some(description), path := [])
  }

  /** With distinct ids, a waiting police car is the only unit dispatched:
      it appears at the main gate, responding to the target. */
  lemma DispatchPoliceOnlyPolice(w: World, target: Point, description: string, clock: Ledger.Clock)
    requires UniqueIds(w.units)
    requires FirstWhere(w.units, IsPolice).Some?
    requires w.units[FirstWhere(w.units, IsPolice).value].status == Stationary
    ensures var k := FirstWhere(w.units, IsPolice).value;
            var r := DispatchPolice(w, target, description, clock);
            && |r.units| == |w.units|
            && (forall i | 0 <= i < |w.units| && i != k :: r.units[i] == w.units[i])
            && r.units[k].kind.Police? && r.units[k].status == Responding
            && r.units[k].location == MainGateEntrance && r.units[k].missionTarget == Some(target)
  {
    var k := FirstWhere(w.units, IsPolice).value;
    UpdateOnlyChosen(w.units, k, (u: Unit) => true, (u: Unit) => Entering(u, target, description));
  }

  lemma DispatchPoliceKeepsWorldOk(w: World, target: Point, description: string, clock: Ledger.Clock)
    requires WorldOk(w)
    ensures WorldOk(DispatchPolice(w, target, description, clock))
  {
    match FirstWhere(w.units, IsPolice)
    case Some(k) =>
      var p := w.units[k];
      if p.status == Stationary {
        var w' := Log(w, clock, Ledger.Patrol, "Police unit " + p.name + " dispatched to incident, entering via Main Gate.");
        var fits, change := (u: Unit) => true, (u: Unit) => Entering(u, target, description);
        assert DispatchPolice(w, target, description, clock) == w'.(units := UpdateWhere(w.units, p.id, fits, change));
        LogKeepsWorldOk(w, clock, Ledger.Patrol, "Police unit " + p.name + " dispatched to incident, entering via Main Gate.");
        EnteringKeepsUnitOk(target, description);
        UpdateKeepsUnitsOk(w.units, p.id, fits, change);
      } else {
        AssignPatrolKeepsWorldOk(w, target, description, Responding, true, clock);
      }
    case None =>
      AssignPatrolKeepsWorldOk(w, target, description, Responding, true, clock);
  }

  lemma EnteringKeepsUnitOk(target: Point, description: string)
    ensures forall u: Unit | UnitOk(u) ::
              Entering(u, target, description).id == u.id && UnitOk(Entering(u, target, description))
  {
  }

  // ------------------------------------------------------------- breaches

  /** Some anomaly is a robbery. */
  predicate HasRobbery(anomalies: seq<Anomaly>)
  {
    exists i | 0 <= i < |anomalies| :: anomalies[i].isRobbery
  }

  /** `triggerBreachProtocol`: raising the emergency protocol while it is
      already raised does nothing. */
  function TriggerBreach(w: World, details: Anomaly, autonomous: bool, clock: Ledger.Clock): (r: World)
    ensures w.breachActive ==> r == w
    ensures !w.breachActive ==>
              && r.breachActive && r.breachDetails == Some(details)
              && r.units == w.units && r.stations == w.stations && r.anomalies == w.anomalies
              && r.chat == w.chat && r.reports == w.reports
              && |r.ledger| == |w.ledger| + 1 && r.ledger[..|w.ledger|] == w.ledger
              && r.ledger[|w.ledger|].event.kind == Ledger.Breach
  {
    if w.breachActive then w
    else
      Log(w, clock, Ledger.Breach, Prefix(autonomous) + "EMERGENCY PROTOCOL ACTIVE: " + details.description)
        .(breachDetails := Some(details), breachActive := true)
  }

  /** Raising the protocol twice is raising it once: the first details and
      the first ledger entry stand. */
  lemma TriggerBreachIdempotent(w: World, d1: Anomaly, a1: bool, c1: Ledger.Clock, d2: Anomaly, a2: bool, c2: Ledger.Clock)
    ensures var r := TriggerBreach(w, d1, a1, c1);
            TriggerBreach(r, d2, a2, c2) == r && r.breachActive
  {
  }

  lemma TriggerBreachKeepsWorldOk(w: World, details: Anomaly, autonomous: bool, clock: Ledger.Clock)
    requires WorldOk(w)
    ensures WorldOk(TriggerBreach(w, details, autonomous, clock))
  {
    if !w.breachActive {
      LogKeepsWorldOk(w, clock, Ledger.Breach, Prefix(autonomous) + "EMERGENCY PROTOCOL ACTIVE: " + details.description);
    }
  }

  /** The message posted to the residents' chat when a robbery is reported. */
  function Alert(location: Point, clock: Ledger.Clock): ChatMessage
  {
    ChatMessage(ToBase(clock.now, 10), "SECUR-E Control",
      "EMERGENCY ALERT: Active security incident reported near " + NearestBuildingName(location)
        + ". Please stay indoors and await further instructions.", clock.iso)
  }

  /** `handleAutonomousResponse`: a high threat raises the protocol, sends
      the nearest drone and fires the nearest deterrent, then sends the
      police and warns the residents for a robbery, or the nearest patrol
      otherwise; a medium threat fires the nearest deterrent and sends a
      patrol to investigate; a low threat is only announced. */
  function AutonomousResponse(w: World, a: Anomaly, clock: Ledger.Clock): (r: World)
    ensures a.threat == Low ==> r == w
    ensures a.threat == High ==> r.breachActive
  {
    match a.threat
    case High => HighLastStep(HighFirstSteps(w, a, clock), a, clock)
    case Medium =>
      var w1 := ActivateDeterrent(w, a.location, true, clock);
      AssignPatrol(w1, a.location, "investigate area", Investigating, true, clock)
    case Low => w
  }

  /** What every response keeps and adds: the anomalies and reports stay,
      the ledger only grows, the protocol is raised with the anomaly's
      details only by a high threat, and residents are warned exactly for a
      high-threat robbery. */
  lemma AutonomousResponseFacts(w: World, a: Anomaly, clock: Ledger.Clock)
    ensures var r := AutonomousResponse(w, a, clock);
            && (a.threat == High && !w.breachActive ==> r.breachDetails == Some(a))
            && (a.threat != High ==> r.breachActive == w.breachActive && r.breachDetails == w.breachDetails)
            && r.chat == (if a.threat == High && a.isRobbery then w.chat + [Alert(a.location, clock)] else w.chat)
            && r.anomalies == w.anomalies && r.reports == w.reports
            && Extends(w.ledger, r.ledger)
            && |r.units| == |w.units| && |r.stations| == |w.stations|
  {
    if a.threat == High {
      HighResponseFacts(w, a, clock);
    } else if a.threat == Medium {
      MediumResponseFacts(w, a, clock);
    }
  }

  lemma HighResponseFacts(w: World, a: Anomaly, clock: Ledger.Clock)
    requires a.threat == High
    ensures var r := AutonomousResponse(w, a, clock);
            && (!w.breachActive ==> r.breachDetails == Some(a))
            && r.chat == (if a.isRobbery then w.chat + [Alert(a.location, clock)] else w.chat)
            && r.anomalies == w.anomalies && r.reports == w.reports
            && Extends(w.ledger, r.ledger)
            && |r.units| == |w.units| && |r.stations| == |w.stations|
  {
    var w3 := HighFirstSteps(w, a, clock);
    HighFirstStepsFacts(w, a, clock);
    if a.isRobbery {
      var w4 := DispatchPolice(w3, a.location, a.description, clock);
      assert AutonomousResponse(w, a, clock) == w4.(chat := w4.chat + [Alert(a.location, clock)]);
      PoliceResponseFacts(w3, a.location, a.description, clock);
      ExtendsTrans(w.ledger, w3.ledger, w4.ledger);
    } else {
      var w4 := AssignPatrol(w3, a.location, a.description, Responding, true, clock);
      assert AutonomousResponse(w, a, clock) == w4;
      PatrolResponseFacts(w3, a.location, a.description, Responding, clock);
      ExtendsTrans(w.ledger, w3.ledger, w4.ledger);
    }
  }

  /** Dispatching the police keeps the fleet and the stations in place. */
  lemma PoliceResponseFacts(w: World, target: Point, description: string, clock: Ledger.Clock)
    ensures var r := DispatchPolice(w, target, description, clock);
            |r.units| == |w.units| && r.stations == w.stations
  {
    match FirstWhere(w.units, IsPolice)
    case Some(k) =>
      if w.units[k].status != Stationary {
        PatrolResponseFacts(w, target, description, Responding, clock);
      }
    case None =>
      PatrolResponseFacts(w, target, description, Responding, clock);
  }

  /** Assigning a patrol keeps the fleet and the stations in place. */
  lemma PatrolResponseFacts(w: World, target: Point, description: string, status: Status, clock: Ledger.Clock)
    ensures var r := AssignPatrol(w, target, description, status, true, clock);
            |r.units| == |w.units| && r.stations == w.stations
  {
  }

  lemma MediumResponseFacts(w: World, a: Anomaly, clock: Ledger.Clock)
    requires a.threat == Medium
    ensures var r := AutonomousResponse(w, a, clock);
            && r.breachActive == w.breachActive && r.breachDetails == w.breachDetails
            && r.chat == w.chat && r.anomalies == w.anomalies && r.reports == w.reports
            && Extends(w.ledger, r.ledger)
            && |r.units| == |w.units| && |r.stations| == |w.stations|
  {
    var w1 := ActivateDeterrent(w, a.location, true, clock);
    ExtendsTrans(w.ledger, w1.ledger, AssignPatrol(w1, a.location, "investigate area", Investigating, true, clock).ledger);
  }

  /** The steps every high-threat response starts with. */
  function HighFirstSteps(w: World, a: Anomaly, clock: Ledger.Clock): World
  {
    var w1 := TriggerBreach(w, a, true, clock);
    var w2 := AssignDrone(w1, a.location, a.description, true, clock);
    ActivateDeterrent(w2, a.location, true, clock)
  }

  /** The step that ends a high-threat response: the police and an alert
      to the residents for a robbery, the closest patrol otherwise. */
  function HighLastStep(w: World, a: Anomaly, clock: Ledger.Clock): World
  {
    if a.isRobbery then
      var w4 := DispatchPolice(w, a.location, a.description, clock);
      w4.(chat := w4.chat + [Alert(a.location, clock)])
    else AssignPatrol(w, a.location, a.description, Responding, true, clock)
  }

  lemma HighFirstStepsFacts(w: World, a: Anomaly, clock: Ledger.Clock)
    ensures var r := HighFirstSteps(w, a, clock);
            && r.breachActive && (!w.breachActive ==> r.breachDetails == Some(a))
            && r.chat == w.chat && r.anomalies == w.anomalies && r.reports == w.reports
            && Extends(w.ledger, r.ledger)
            && |r.units| == |w.units| && |r.stations| == |w.stations|
  {
    var w1 := TriggerBreach(w, a, true, clock);
    var w2 := AssignDrone(w1, a.location, a.description, true, clock);
    var w3 := ActivateDeterrent(w2, a.location, true, clock);
    assert Extends(w.ledger, w1.ledger);
    ExtendsTrans(w.ledger, w1.ledger, w2.ledger);
    ExtendsTrans(w.ledger, w2.ledger, w3.ledger);
  }

  lemma ExtendsTrans(a: seq<Ledger.Block>, b: seq<Ledger.Block>, c: seq<Ledger.Block>)
    requires Extends(a, b) && Extends(b, c)
    ensures Extends(a, c)
  {
    assert c[..|a|] == c[..|b|][..|a|];
  }

  /** A medium threat sends the closest patrolling guard or vehicle to
      investigate the area, and with distinct ids no other unit changes;
      with no patrol out, no unit changes at all. */
  lemma MediumSendsClosestPatrol(w: World, a: Anomaly, clock: Ledger.Clock)
    requires UniqueIds(w.units) && a.threat == Medium
    ensures var r := AutonomousResponse(w, a, clock);
            match ClosestPatrol(a.location, w.units)
            case None => r.units == w.units
            case Some(k) =>
              && |r.units| == |w.units|
              && r.units[k] == Dispatched(w.units[k], a.location, "investigate area", Investigating)
              && forall i | 0 <= i < |w.units| && i != k :: r.units[i] == w.units[i]
  {
    var w1 := ActivateDeterrent(w, a.location, true, clock);
    assert AutonomousResponse(w, a, clock) == AssignPatrol(w1, a.location, "investigate area", Investigating, true, clock);
    if ClosestPatrol(a.location, w1.units).Some? {
      AssignPatrolOnlyChosen(w1, a.location, "investigate area", Investigating, true, clock);
    }
  }

  /** A medium threat fires the deterrent station nearest to it, and with
      distinct station ids no other station records a firing. */
  lemma MediumFiresNearestStation(w: World, a: Anomaly, clock: Ledger.Clock)
    requires UniqueStationIds(w.stations) && a.threat == Medium
    ensures var r := AutonomousResponse(w, a, clock);
            match ClosestStation(a.location, w.stations)
            case None => r.stations == w.stations
            case Some(k) =>
              && |r.stations| == |w.stations|
              && r.stations[k].lastActivated == (if w.stations[k].id == "" then w.stations[k].lastActivated else clock.now)
              && forall i | 0 <= i < |w.stations| && i != k :: r.stations[i] == w.stations[i]
  {
    var w1 := ActivateDeterrent(w, a.location, true, clock);
    assert AutonomousResponse(w, a, clock) == AssignPatrol(w1, a.location, "investigate area", Investigating, true, clock);
    PatrolResponseFacts(w1, a.location, "investigate area", Investigating, clock);
    if ClosestStation(a.location, w.stations).Some? {
      DeterrentOnlyNearest(w, a.location, true, clock);
    }
  }

  /** A high threat fires the deterrent station nearest to it, and with
      distinct station ids no other station records a firing. */
  lemma HighFiresNearestStation(w: World, a: Anomaly, clock: Ledger.Clock)
    requires UniqueStationIds(w.stations) && a.threat == High
    ensures var r := AutonomousResponse(w, a, clock);
            match ClosestStation(a.location, w.stations)
            case None => r.stations == w.stations
            case Some(k) =>
              && |r.stations| == |w.stations|
              && r.stations[k].lastActivated == (if w.stations[k].id == "" then w.stations[k].lastActivated else clock.now)
              && forall i | 0 <= i < |w.stations| && i != k :: r.stations[i] == w.stations[i]
  {
    var w2 := AssignDrone(TriggerBreach(w, a, true, clock), a.location, a.description, true, clock);
    HighResponseStations(w, a, clock);
    if ClosestStation(a.location, w.stations).Some? {
      DeterrentOnlyNearest(w2, a.location, true, clock);
    }
  }

  /** Of a high-threat response, only the deterrent step touches the stations. */
  lemma HighResponseStations(w: World, a: Anomaly, clock: Ledger.Clock)
    requires a.threat == High
    ensures var w2 := AssignDrone(TriggerBreach(w, a, true, clock), a.location, a.description, true, clock);
            && w2.stations == w.stations
            && AutonomousResponse(w, a, clock).stations == ActivateDeterrent(w2, a.location, true, clock).stations
  {
    var w3 := HighFirstSteps(w, a, clock);
    assert AutonomousResponse(w, a, clock) == HighLastStep(w3, a, clock);
    HighLastStepStations(w3, a, clock);
  }

  /** The last step of a high-threat response leaves the stations alone. */
  lemma HighLastStepStations(w: World, a: Anomaly, clock: Ledger.Clock)
    requires a.threat == High
    ensures HighLastStep(w, a, clock).stations == w.stations
  {
    if a.isRobbery {
      PoliceResponseFacts(w, a.location, a.description, clock);
    } else {
      PatrolResponseFacts(w, a.location, a.description, Responding, clock);
    }
  }

  /** The first police car is waiting off the map. */
  predicate PoliceWaiting(units: seq<Unit>)
  {
    match FirstWhere(units, IsPolice)
    case None => false
    case Some(j) => units[j].status == Stationary
  }

  /** The fleet after the first steps of a high-threat response: the
      closest available drone tracks the threat. */
  function TrackClosest(units: seq<Unit>, target: Point, description: string): seq<Unit>
  {
    match ClosestAvailableDrone(target, units)
    case None => units
    case Some(k) => UpdateWhere(units, units[k].id, IsDrone, (u: Unit) => Track(u, target, description))
  }

  /** The fleet after the last step: the waiting police car enters for a
      robbery, and otherwise the closest patrol responds. */
  function RespondUnits(units: seq<Unit>, a: Anomaly): seq<Unit>
  {
    if a.isRobbery && PoliceWaiting(units) then
      var j := FirstWhere(units, IsPolice).value;
      UpdateWhere(units, units[j].id, (u: Unit) => true, (u: Unit) => Entering(u, a.location, a.description))
    else
      match ClosestPatrol(a.location, units)
      case None => units
      case Some(m) =>
        UpdateWhere(units, units[m].id, IsGuardOrVehicle, (u: Unit) => Dispatched(u, a.location, a.description, Responding))
  }

  /** Of the first steps, only the drone assignment changes the fleet. */
  lemma HighFirstStepsUnits(w: World, a: Anomaly, clock: Ledger.Clock)
    ensures HighFirstSteps(w, a, clock).units == TrackClosest(w.units, a.location, a.description)
  {
    assert TriggerBreach(w, a, true, clock).units == w.units;
  }

  /** The police or patrol step, seen on the fleet. */
  lemma HighLastStepUnits(w: World, a: Anomaly, clock: Ledger.Clock)
    ensures HighLastStep(w, a, clock).units == RespondUnits(w.units, a)
  {
    if a.isRobbery && !PoliceWaiting(w.units) {
      assert DispatchPolice(w, a.location, a.description, clock) == AssignPatrol(w, a.location, a.description, Responding, true, clock);
    }
  }

  /** A high-threat response moves the fleet as the two fleet steps do. */
  lemma HighResponseUnits(w: World, a: Anomaly, clock: Ledger.Clock)
    requires a.threat == High
    ensures AutonomousResponse(w, a, clock).units == RespondUnits(TrackClosest(w.units, a.location, a.description), a)
  {
    var w3 := HighFirstSteps(w, a, clock);
    HighFirstStepsUnits(w, a, clock);
    HighLastStepUnits(w3, a, clock);
  }

  /** Tracking moves no unit, keeps every id and kind, and changes only
      drones: the closest available one, and with distinct ids no other. */
  lemma TrackClosestFacts(units: seq<Unit>, target: Point, description: string)
    ensures var r := TrackClosest(units, target, description);
            && |r| == |units|
            && (forall i | 0 <= i < |units| ::
                  r[i].id == units[i].id && r[i].kind == units[i].kind && r[i].location == units[i].location)
            && (forall i | 0 <= i < |units| && !units[i].kind.Drone? :: r[i] == units[i])
            && match ClosestAvailableDrone(target, units)
               case None => r == units
               case Some(k) =>
                 && r[k] == Track(units[k], target, description)
                 && (UniqueIds(units) ==> forall i | 0 <= i < |units| && i != k :: r[i] == units[i])
  {
    match ClosestAvailableDrone(target, units)
    case None =>
    case Some(k) =>
      if UniqueIds(units) {
        UpdateOnlyChosen(units, k, IsDrone, (u: Unit) => Track(u, target, description));
      }
  }

  /** Ids stay distinct through tracking. */
  lemma TrackClosestKeepsIds(units: seq<Unit>, target: Point, description: string)
    requires UniqueIds(units)
    ensures UniqueIds(TrackClosest(units, target, description))
  {
    var r := TrackClosest(units, target, description);
    TrackClosestFacts(units, target, description);
    forall i, j | 0 <= i < |r| && 0 <= j < |r| && r[i].id == r[j].id
      ensures i == j
    {
      assert units[i].id == units[j].id;
    }
  }

  /** With distinct ids and the first police car waiting, a robbery brings
      in that car only, at the main gate. */
  lemma RespondUnitsPolice(units: seq<Unit>, a: Anomaly)
    requires UniqueIds(units) && a.isRobbery && PoliceWaiting(units)
    ensures var r := RespondUnits(units, a);
            var j := FirstWhere(units, IsPolice).value;
            && |r| == |units|
            && r[j] == Entering(units[j], a.location, a.description)
            && forall i | 0 <= i < |units| && i != j :: r[i] == units[i]
  {
    var j := FirstWhere(units, IsPolice).value;
    UpdateOnlyChosen(units, j, (u: Unit) => true, (u: Unit) => Entering(u, a.location, a.description));
  }

  /** With distinct ids and no police car coming, the closest patrolling
      guard or vehicle responds and no other unit changes. */
  lemma RespondUnitsPatrol(units: seq<Unit>, a: Anomaly)
    requires UniqueIds(units) && !(a.isRobbery && PoliceWaiting(units))
    ensures var r := RespondUnits(units, a);
            && |r| == |units|
            && match ClosestPatrol(a.location, units)
               case None => r == units
               case Some(m) =>
                 && r[m] == Dispatched(units[m], a.location, a.description, Responding)
                 && forall i | 0 <= i < |units| && i != m :: r[i] == units[i]
  {
    match ClosestPatrol(a.location, units)
    case None =>
    case Some(m) =>
      UpdateOnlyChosen(units, m, IsGuardOrVehicle, (u: Unit) => Dispatched(u, a.location, a.description, Responding));
  }

  /** What the first fleet step leaves for the second: the same police
      cars, waiting or not, and the same patrols in the same places. */
  lemma TrackClosestKeepsChoices(units: seq<Unit>, a: Anomaly)
    ensures var vs := TrackClosest(units, a.location, a.description);
            && FirstWhere(vs, IsPolice) == FirstWhere(units, IsPolice)
            && PoliceWaiting(vs) == PoliceWaiting(units)
            && ClosestPatrol(a.location, vs) == ClosestPatrol(a.location, units)
  {
    var vs := TrackClosest(units, a.location, a.description);
    TrackClosestFacts(units, a.location, a.description);
    FirstWhereAgrees(units, vs, IsPolice);
    ClosestPatrolAgrees(a.location, units, vs);
  }

  /** A high threat sends the closest available drone to track it. */
  lemma HighTracksClosestDrone(w: World, a: Anomaly, clock: Ledger.Clock)
    requires UniqueIds(w.units) && a.threat == High
    requires ClosestAvailableDrone(a.location, w.units).Some?
    ensures var k := ClosestAvailableDrone(a.location, w.units).value;
            var r := AutonomousResponse(w, a, clock);
            |r.units| == |w.units| && r.units[k] == Track(w.units[k], a.location, a.description)
  {
    HighResponseUnits(w, a, clock);
    TracksClosestDrone(w.units, a);
  }

  /** The fleet-level form of `HighTracksClosestDrone`. */
  lemma TracksClosestDrone(units: seq<Unit>, a: Anomaly)
    requires UniqueIds(units) && ClosestAvailableDrone(a.location, units).Some?
    ensures var k := ClosestAvailableDrone(a.location, units).value;
            var r := RespondUnits(TrackClosest(units, a.location, a.description), a);
            |r| == |units| && r[k] == Track(units[k], a.location, a.description)
  {
    var vs := TrackClosest(units, a.location, a.description);
    TrackClosestFacts(units, a.location, a.description);
    TrackClosestKeepsIds(units, a.location, a.description);
    if a.isRobbery && PoliceWaiting(vs) {
      RespondUnitsPolice(vs, a);
    } else {
      RespondUnitsPatrol(vs, a);
    }
  }

  /** A high-threat robbery brings in the first police car, at the main
      gate, when it is waiting off the map. */
  lemma HighRobberySendsPolice(w: World, a: Anomaly, clock: Ledger.Clock)
    requires UniqueIds(w.units) && a.threat == High && a.isRobbery && PoliceWaiting(w.units)
    ensures var j := FirstWhere(w.units, IsPolice).value;
            var r := AutonomousResponse(w, a, clock);
            |r.units| == |w.units| && r.units[j] == Entering(w.units[j], a.location, a.description)
  {
    HighResponseUnits(w, a, clock);
    SendsPolice(w.units, a);
  }

  /** The fleet-level form of `HighRobberySendsPolice`. */
  lemma SendsPolice(units: seq<Unit>, a: Anomaly)
    requires UniqueIds(units) && a.isRobbery && PoliceWaiting(units)
    ensures var j := FirstWhere(units, IsPolice).value;
            var r := RespondUnits(TrackClosest(units, a.location, a.description), a);
            |r| == |units| && r[j] == Entering(units[j], a.location, a.description)
  {
    var vs := TrackClosest(units, a.location, a.description);
    TrackClosestFacts(units, a.location, a.description);
    TrackClosestKeepsIds(units, a.location, a.description);
    TrackClosestKeepsChoices(units, a);
    RespondUnitsPolice(vs, a);
  }

  /** A high threat that is no robbery, or a robbery with no police car
      waiting, sends the closest patrolling guard or vehicle to respond. */
  lemma HighSendsClosestPatrol(w: World, a: Anomaly, clock: Ledger.Clock)
    requires UniqueIds(w.units) && a.threat == High && !(a.isRobbery && PoliceWaiting(w.units))
    requires ClosestPatrol(a.location, w.units).Some?
    ensures var m := ClosestPatrol(a.location, w.units).value;
            var r := AutonomousResponse(w, a, clock);
            |r.units| == |w.units| && r.units[m] == Dispatched(w.units[m], a.location, a.description, Responding)
  {
    HighResponseUnits(w, a, clock);
    SendsClosestPatrol(w.units, a);
  }

  /** The fleet-level form of `HighSendsClosestPatrol`. */
  lemma SendsClosestPatrol(units: seq<Unit>, a: Anomaly)
    requires UniqueIds(units) && !(a.isRobbery && PoliceWaiting(units))
    requires ClosestPatrol(a.location, units).Some?
    ensures var m := ClosestPatrol(a.location, units).value;
            var r := RespondUnits(TrackClosest(units, a.location, a.description), a);
            |r| == |units| && r[m] == Dispatched(units[m], a.location, a.description, Responding)
  {
    var vs := TrackClosest(units, a.location, a.description);
    TrackClosestFacts(units, a.location, a.description);
    TrackClosestKeepsIds(units, a.location, a.description);
    TrackClosestKeepsChoices(units, a);
    RespondUnitsPatrol(vs, a);
  }

  /** With distinct ids, a high threat changes no unit besides the
      closest available drone and either the waiting police car (for a
      robbery) or the closest patrolling guard or vehicle. */
  lemma HighChangesNoOtherUnit(w: World, a: Anomaly, clock: Ledger.Clock)
    requires UniqueIds(w.units) && a.threat == High
    ensures var r := AutonomousResponse(w, a, clock);
            && |r.units| == |w.units|
            && forall i | 0 <= i < |w.units| && r.units[i] != w.units[i] ::
                 || ClosestAvailableDrone(a.location, w.units) == Some(i)
                 || (a.isRobbery && PoliceWaiting(w.units) && FirstWhere(w.units, IsPolice) == Some(i))
                 || (!(a.isRobbery && PoliceWaiting(w.units)) && ClosestPatrol(a.location, w.units) == Some(i))
  {
    HighResponseUnits(w, a, clock);
    ChangesNoOtherUnit(w.units, a);
  }

  /** The fleet-level form of `HighChangesNoOtherUnit`. */
  lemma ChangesNoOtherUnit(units: seq<Unit>, a: Anomaly)
    requires UniqueIds(units)
    ensures var r := RespondUnits(TrackClosest(units, a.location, a.description), a);
            && |r| == |units|
            && forall i | 0 <= i < |units| && r[i] != units[i] ::
                 || ClosestAvailableDrone(a.location, units) == Some(i)
                 || (a.isRobbery && PoliceWaiting(units) && FirstWhere(units, IsPolice) == Some(i))
                 || (!(a.isRobbery && PoliceWaiting(units)) && ClosestPatrol(a.location, units) == Some(i))
  {
    var vs := TrackClosest(units, a.location, a.description);
    TrackClosestFacts(units, a.location, a.description);
    TrackClosestKeepsIds(units, a.location, a.description);
    TrackClosestKeepsChoices(units, a);
    if a.isRobbery && PoliceWaiting(vs) {
      RespondUnitsPolice(vs, a);
    } else {
      RespondUnitsPatrol(vs, a);
    }
  }

  lemma AutonomousResponseKeepsWorldOk(w: World, a: Anomaly, clock: Ledger.Clock)
    requires WorldOk(w)
    ensures WorldOk(AutonomousResponse(w, a, clock))
  {
    match a.threat
    case High =>
      var w1 := TriggerBreach(w, a, true, clock);
      TriggerBreachKeepsWorldOk(w, a, true, clock);
      var w2 := AssignDrone(w1, a.location, a.description, true, clock);
      AssignDroneKeepsWorldOk(w1, a.location, a.description, true, clock);
      var w3 := ActivateDeterrent(w2, a.location, true, clock);
      DeterrentKeepsWorldOk(w2, a.location, true, clock);
      assert w3 == HighFirstSteps(w, a, clock);
      if a.isRobbery {
        DispatchPoliceKeepsWorldOk(w3, a.location, a.description, clock);
      } else {
        AssignPatrolKeepsWorldOk(w3, a.location, a.description, Responding, true, clock);
      }
    case Medium =>
      DeterrentKeepsWorldOk(w, a.location, true, clock);
      AssignPatrolKeepsWorldOk(ActivateDeterrent(w, a.location, true, clock), a.location, "investigate area", Investigating, true, clock);
    case Low =>
  }

  /** The response to each anomaly in turn. */
  function RespondAll(w: World, anomalies: seq<Anomaly>, clock: Ledger.Clock): (r: World)
    decreases |anomalies|
  {
    if |anomalies| == 0 then w
    else RespondAll(AutonomousResponse(w, anomalies[0], clock), anomalies[1..], clock)
  }

  /** `handleAnomaliesDetected`: the new anomalies replace the old ones and
      each is answered autonomously, in order. */
  function IngestAnomalies(w: World, anomalies: seq<Anomaly>, clock: Ledger.Clock): (r: World)
  {
    RespondAll(w.(anomalies := anomalies), anomalies, clock)
  }

  /** Responding keeps the anomaly list and the reports, only extends the
      ledger, and raises the protocol exactly when some anomaly is high. */
  lemma {:induction false} RespondAllFacts(w: World, anomalies: seq<Anomaly>, clock: Ledger.Clock)
    ensures var r := RespondAll(w, anomalies, clock);
            && r.anomalies == w.anomalies && r.reports == w.reports
            && Extends(w.ledger, r.ledger)
            && |r.units| == |w.units|
            && (r.breachActive <==> w.breachActive || exists i | 0 <= i < |anomalies| :: anomalies[i].threat == High)
    decreases |anomalies|
  {
    if |anomalies| > 0 {
      var w1 := AutonomousResponse(w, anomalies[0], clock);
      AutonomousResponseFacts(w, anomalies[0], clock);
      RespondAllFacts(w1, anomalies[1..], clock);
      ExtendsTrans(w.ledger, w1.ledger, RespondAll(w1, anomalies[1..], clock).ledger);
      HighSomewhere(anomalies);
    }
  }

  /** A high threat occurs in a non-empty batch exactly when it heads the
      batch or occurs in the rest. */
  lemma HighSomewhere(anomalies: seq<Anomaly>)
    requires |anomalies| > 0
    ensures (exists i | 0 <= i < |anomalies| :: anomalies[i].threat == High) <==>
            anomalies[0].threat == High || exists i | 0 <= i < |anomalies[1..]| :: anomalies[1..][i].threat == High
  {
    if exists i | 0 <= i < |anomalies[1..]| :: anomalies[1..][i].threat == High {
      var i :| 0 <= i < |anomalies[1..]| && anomalies[1..][i].threat == High;
      assert anomalies[i + 1].threat == High;
    }
    if exists i | 0 <= i < |anomalies| :: anomalies[i].threat == High {
      var i :| 0 <= i < |anomalies| && anomalies[i].threat == High;
      if i > 0 { assert anomalies[1..][i - 1].threat == High; }
    }
  }

  /** When no anomaly is high or medium, ingesting them only records them. */
  lemma {:induction false} IngestLowOnly(w: World, anomalies: seq<Anomaly>, clock: Ledger.Clock)
    requires forall i | 0 <= i < |anomalies| :: anomalies[i].threat == Low
    ensures IngestAnomalies(w, anomalies, clock) == w.(anomalies := anomalies)
  {
    LowOnlyNoop(w.(anomalies := anomalies), anomalies, clock);
  }

  lemma {:induction false} LowOnlyNoop(w: World, anomalies: seq<Anomaly>, clock: Ledger.Clock)
    requires forall i | 0 <= i < |anomalies| :: anomalies[i].threat == Low
    ensures RespondAll(w, anomalies, clock) == w
    decreases |anomalies|
  {
    if |anomalies| > 0 {
      LowOnlyNoop(w, anomalies[1..], clock);
    }
  }

  lemma {:induction false} RespondAllKeepsWorldOk(w: World, anomalies: seq<Anomaly>, clock: Ledger.Clock)
    requires WorldOk(w)
    ensures WorldOk(RespondAll(w, anomalies, clock))
    decreases |anomalies|
  {
    if |anomalies| > 0 {
      AutonomousResponseKeepsWorldOk(w, anomalies[0], clock);
      RespondAllKeepsWorldOk(AutonomousResponse(w, anomalies[0], clock), anomalies[1..], clock);
    }
  }

  /** Ingesting anomalies records them, keeps the invariant, and raises the
      protocol when one of them is high. */
  lemma IngestFacts(w: World, anomalies: seq<Anomaly>, clock: Ledger.Clock)
    requires WorldOk(w)
    ensures var r := IngestAnomalies(w, anomalies, clock);
            && WorldOk(r) && r.anomalies == anomalies && Extends(w.ledger, r.ledger)
            && (r.breachActive <==> w.breachActive || exists i | 0 <= i < |anomalies| :: anomalies[i].threat == High)
  {
    var w0 := w.(anomalies := anomalies);
    RespondAllFacts(w0, anomalies, clock);
    RespondAllKeepsWorldOk(w0, anomalies, clock);
  }

  /** The state a unit is stood down to when the protocol ends: the police
      back off the map, everyone else patrolling, missions cleared. A
      drone keeps its route. */
  function StandDown(u: Unit): (v: Unit)
  {
    match u.kind
    case Police =>
      u.(status := Stationary, location := OffMapStation, missionTarget := None, missionDescription := None, path := [])
    case Guard => u.(status := Patrolling, missionTarget := None, missionDescription := None, path := [])
    case Vehicle => u.(status := Patrolling, missionTarget := None, missionDescription := None, path := [])
    case Drone(_, _, _, _) => u.(status := Patrolling, missionTarget := None, missionDescription := None)
  }

  /** `endBreachProtocol`: refused while breach details are held or a
      robbery is among the anomalies; otherwise logs the stand-down, lowers
      the protocol and stands every unit down. */
  function EndBreach(w: World, clock: Ledger.Clock): (r: World)
    ensures w.breachDetails.Some? || HasRobbery(w.anomalies) ==> r == w
    ensures !(w.breachDetails.Some? || HasRobbery(w.anomalies)) ==>
              && !r.breachActive && r.breachDetails.None?
              && |r.ledger| == |w.ledger| + 1 && r.ledger[..|w.ledger|] == w.ledger
              && r.ledger[|w.ledger|].event.kind == Ledger.System
              && |r.units| == |w.units|
              && forall i | 0 <= i < |w.units| ::
                   && r.units[i].id == w.units[i].id && r.units[i].name == w.units[i].name
                   && r.units[i].kind == w.units[i].kind
                   && r.units[i].missionTarget.None? && r.units[i].missionDescription.None?
                   && r.units[i].status == (if w.units[i].kind.Police? then Stationary else Patrolling)
                   && (w.units[i].kind.Police? ==> r.units[i].location == OffMapStation)
                   && (!w.units[i].kind.Police? ==> r.units[i].location == w.units[i].location)
                   && r.units[i].path == (if w.units[i].kind.Drone? then w.units[i].path else [])
    ensures r.anomalies == w.anomalies && r.stations == w.stations && r.chat == w.chat && r.reports == w.reports
  {
    if w.breachDetails.Some? || HasRobbery(w.anomalies) then w
    else
      Log(w, clock, Ledger.System, "Emergency Protocol deactivated. All units returning to patrol status.")
        .(breachActive := false, units := StandAllDown(w.units))
  }

  function StandAllDown(units: seq<Unit>): (r: seq<Unit>)
    ensures |r| == |units|
    ensures forall i | 0 <= i < |units| :: r[i] == StandDown(units[i])
  {
    seq(|units|, i requires 0 <= i < |units| => StandDown(units[i]))
  }

  /** Standing down keeps ids, and gives every unit a status its kind
      admits. */
  lemma StandAllDownKeepsUnitsOk(units: seq<Unit>)
    requires UnitsOk(units)
    ensures UnitsOk(StandAllDown(units))
  {
    var r := StandAllDown(units);
    assert forall i | 0 <= i < |r| :: r[i].id == units[i].id;
  }

  /** Standing down is idempotent: ending the protocol a second time logs
      again but moves no unit. */
  lemma EndBreachTwice(w: World, c1: Ledger.Clock, c2: Ledger.Clock)
    requires w.breachDetails.None? && !HasRobbery(w.anomalies)
    ensures var r := EndBreach(w, c1);
            EndBreach(r, c2).units == r.units && |EndBreach(r, c2).ledger| == |r.ledger| + 1
  {
  }

  lemma EndBreachKeepsWorldOk(w: World, clock: Ledger.Clock)
    requires WorldOk(w)
    ensures WorldOk(EndBreach(w, clock))
  {
    if !(w.breachDetails.Some? || HasRobbery(w.anomalies)) {
      var desc := "Emergency Protocol deactivated. All units returning to patrol status.";
      assert EndBreach(w, clock) == Log(w, clock, Ledger.System, desc).(breachActive := false, units := StandAllDown(w.units));
      LogKeepsWorldOk(w, clock, Ledger.System, desc);
      StandAllDownKeepsUnitsOk(w.units);
    }
  }

  /** The effect that ends the protocol once no robbery is left among the
      anomalies. */
  function AutoEndBreach(w: World, clock: Ledger.Clock): (r: World)
    ensures !w.breachActive || HasRobbery(w.anomalies) ==> r == w
    ensures w.breachActive && !HasRobbery(w.anomalies) && w.breachDetails.None? ==> !r.breachActive
    ensures w.breachActive && w.breachDetails.Some? ==> r.breachActive
  {
    if w.breachActive && !HasRobbery(w.anomalies) then EndBreach(w, clock) else w
  }

  lemma AutoEndBreachKeepsWorldOk(w: World, clock: Ledger.Clock)
    requires WorldOk(w)
    ensures WorldOk(AutoEndBreach(w, clock))
  {
    EndBreachKeepsWorldOk(w, clock);
  }
}

=== FILE: Layout.dfy ===
/** The fixed geography of the community: the map features, the drone
    patrol sectors, the sonic deterrent stations, the three fixed points
    units travel to, and the two lookups over the features. */
module Layout {
  import opened Common

  /** `MapFeature.type`. */
  datatype FeatureType = GateArea | Building | Residential | Amenity | Parking | Road

  /** A rectangle of the map: top-left corner `(x, y)`, width `w`, height `h`. */
  datatype Feature = Feature(id: string, kind: FeatureType, name: string, x: int, y: int, w: int, h: int)

  function Center(f: Feature): Point
  {
    Point(f.x as real + f.w as real / 2.0, f.y as real + f.h as real / 2.0)
  }

  /** `COMMUNITY_LAYOUT`, in declaration order. */
  const Features: seq<Feature> :=
    [Feature("road-p-n", Road, "Perimeter Dr N", 5, 10, 90, 4),
     Feature("road-p-s", Road, "Perimeter Dr S", 5, 86, 90, 4),
     Feature("road-p-w", Road, "Perimeter Dr W", 5, 10, 4, 80),
     Feature("road-p-e", Road, "Perimeter Dr E", 91, 10, 4, 80),
     Feature("road-c-v", Road, "Central Ave", 48, 10, 4, 80),
     Feature("road-c-h", Road, "Crossway St", 5, 48, 90, 4),
     Feature("res-a", Residential, "Residences A", 12, 17, 33, 28),
     Feature("res-b", Residential, "Residences B", 55, 17, 33, 28),
     Feature("clubhouse", Building, "Clubhouse", 12, 55, 20, 15),
     Feature("pool", Amenity, "Pool", 35, 55, 10, 15),
     Feature("parking-a", Parking, "Parking A", 12, 73, 33, 10),
     Feature("playground", Amenity, "Playground", 55, 55, 15, 15),
     Feature("tennis", Amenity, "Tennis Courts", 73, 55, 15, 15),
     Feature("mail", Building, "Mail Center", 55, 73, 33, 10),
     Feature("gate", GateArea, "Main Gate", 40, 2, 20, 8)]

  /** `DRONE_BASE`, where drones charge. */
  const DroneBase: Point := Point(50.0, 95.0)

  /** `MAIN_GATE_ENTRANCE`, where the police enter and leave. */
  const MainGateEntrance: Point := Point(50.0, 12.0)

  /** `OFF_MAP_STATION`, where the police wait. */
  const OffMapStation: Point := Point(50.0, -10.0)

  /** The drone patrol sectors. */
  datatype Sector = Alpha | Bravo | Charlie | Delta

  /** `PATROL_SECTORS`: top-left corner, width and height of each sector. */
  function SectorX(s: Sector): int { match s case Alpha => 5 case Bravo => 50 case Charlie => 5 case Delta => 50 }
  function SectorY(s: Sector): int { match s case Alpha => 10 case Bravo => 10 case Charlie => 55 case Delta => 55 }
  function SectorW(s: Sector): int { 45 }
  function SectorH(s: Sector): int { match s case Alpha => 45 case Bravo => 45 case Charlie => 41 case Delta => 41 }

  predicate InRect(p: Point, x: real, y: real, w: real, h: real)
  {
    x <= p.x < x + w && y <= p.y < y + h
  }

  /** A random point of a sector, `{ x: sector.x + r * sector.w, ... }`. */
  function SectorPoint(s: Sector, rx: real, ry: real): (p: Point)
    requires UnitInterval(rx) && UnitInterval(ry)
    ensures InRect(p, SectorX(s) as real, SectorY(s) as real, SectorW(s) as real, SectorH(s) as real)
  {
    Point(SectorX(s) as real + rx * SectorW(s) as real, SectorY(s) as real + ry * SectorH(s) as real)
  }

  /** A sonic deterrent station and the clock reading of its last use. */
  datatype Station = Station(id: string, location: Point, lastActivated: int)

  /** `DETERRENT_STATIONS`. */
  const InitialStations: seq<Station> :=
    [Station("ds1", Point(20.0, 20.0), 0), Station("ds2", Point(80.0, 20.0), 0),
     Station("ds3", Point(20.0, 75.0), 0), Station("ds4", Point(80.0, 75.0), 0)]

  /** The residential block an apartment's first character names, after
      upper-casing: `A` is Residences A, `B` to `D` are Residences B. */
  function BlockFeature(apartment: string): (r: Option<nat>)
    ensures r.Some? ==> r.value < |Features| && Features[r.value].kind == Residential
    ensures r.Some? <==> |apartment| > 0 && apartment[0] in "AaBbCcDd"
  {
    if |apartment| == 0 then None
    else if apartment[0] in "Aa" then Some(6)
    else if apartment[0] in "BbCcDd" then Some(7)
    else None
  }

  /** `getHomeLocationForApartment`: a random point of the apartment's block,
      at least 5 away from its edges; `None` when the block is unknown. */
  function HomeLocation(apartment: string, rx: real, ry: real): (r: Option<Point>)
    requires UnitInterval(rx) && UnitInterval(ry)
    ensures r.None? <==> BlockFeature(apartment).None?
    ensures r.Some? ==>
              var f := Features[BlockFeature(apartment).value];
              InRect(r.value, f.x as real + 5.0, f.y as real + 5.0, f.w as real - 10.0, f.h as real - 10.0)
  {
    match BlockFeature(apartment)
    case None => None
    case Some(k) =>
      var f := Features[k];
      var w, h := f.w as real - 10.0, f.h as real - 10.0;
      assert w > 0.0 && h > 0.0;
      assert 0.0 <= rx * w < w && 0.0 <= ry * h < h;
      Some(Point(f.x as real + 5.0 + rx * w, f.y as real + 5.0 + ry * h))
  }

  /** The features a location can be described by. */
  predicate Landmark(f: Feature)
  {
    f.kind == Building || f.kind == Residential || f.kind == Amenity
  }

  /** The position in `Features` of the landmark whose center is nearest to
      `p`, the first one on ties. */
  function NearestLandmark(p: Point): (k: nat)
    ensures IsFirstMin(Features, Landmark, (f: Feature) => DistSq(p, Center(f)), k)
  {
    var r := FirstMin(Features, Landmark, (f: Feature) => DistSq(p, Center(f)));
    assert Landmark(Features[6]);
    r.value
  }

  /** `getNearestBuildingName`. */
  function NearestBuildingName(p: Point): string
  {
    "the " + Features[NearestLandmark(p)].name
  }

  /** A home location always lies nearer to the center of its own block
      than to any other landmark, so the alert text for an incident at a
      resident's home names that resident's block. */
  lemma HomeNearestIsOwnBlock(apartment: string, rx: real, ry: real)
    requires UnitInterval(rx) && UnitInterval(ry)
    requires HomeLocation(apartment, rx, ry).Some?
    ensures NearestLandmark(HomeLocation(apartment, rx, ry).value) == BlockFeature(apartment).value
  {
    var p := HomeLocation(apartment, rx, ry).value;
    var k := BlockFeature(apartment).value;
    var key := (f: Feature) => DistSq(p, Center(f));
    forall j | 0 <= j < |Features| && Landmark(Features[j])
      ensures key(Features[k]) <= key(Features[j])
      ensures j < k ==> key(Features[k]) < key(Features[j])
    {
      CloserToOwnBlock(p, k, j);
    }
    FirstMinUnique(Features, Landmark, key, k, NearestLandmark(p));
  }

  lemma CloserToOwnBlock(p: Point, k: nat, j: nat)
    requires k == 6 || k == 7
    requires j < |Features| && Landmark(Features[j])
    requires var f := Features[k];
             InRect(p, f.x as real + 5.0, f.y as real + 5.0, f.w as real - 10.0, f.h as real - 10.0)
    ensures DistSq(p, Center(Features[k])) <= DistSq(p, Center(Features[j]))
    ensures j != k ==> DistSq(p, Center(Features[k])) < DistSq(p, Center(Features[j]))
  {
  }
}

=== FILE: Ledger.dfy ===
/** The audit ledger: `simpleSyncHash`, the 32-bit rolling hash rendered as
    `'h'` and eight hex digits, and the hash chain `addEvent` grows one block
    at a time. */
module Ledger {
  import opened Common

  /** A UTF-16 code unit, the value `charCodeAt` returns. */
  type CodeUnit = x: int | 0 <= x < 0x1_0000

  /** The code units of a string: a character outside the basic plane
      becomes a surrogate pair. */
  function Utf16(s: string): (u: seq<CodeUnit>)
    ensures |u| >= |s|
  {
    if |s| == 0 then []
    else
      var c := s[0] as int;
      (if c < 0x1_0000 then [c]
       else [0xD800 + (c - 0x1_0000) / 0x400, 0xDC00 + (c - 0x1_0000) % 0x400])
      + Utf16(s[1..])
  }

  /** On the basic plane, code units and characters coincide. */
  lemma {:induction false} Utf16Basic(s: string)
    requires forall i | 0 <= i < |s| :: s[i] as int < 0x1_0000
    ensures |Utf16(s)| == |s|
    ensures forall i | 0 <= i < |s| :: Utf16(s)[i] == s[i] as int
  {
    if |s| > 0 {
      Utf16Basic(s[1..]);
    }
  }

  const Modulus: int := 0x1_0000_0000

  /** `ToInt32`: the 32-bit two's-complement value congruent to `x`. */
  function ToInt32(x: int): (r: int)
    ensures -0x8000_0000 <= r < 0x8000_0000
    ensures (r - x) % Modulus == 0
  {
    (x + 0x8000_0000) % Modulus - 0x8000_0000
  }

  predicate IsInt32(h: int) { -0x8000_0000 <= h < 0x8000_0000 }

  /** One step of the loop, `hash = (hash << 5) - hash + char; hash &= hash`:
      the shift wraps to 32 bits, the subtraction and addition are exact,
      and the `&=` wraps the sum to 32 bits again. */
  function Step(h: int, c: CodeUnit): (r: int)
    ensures IsInt32(r)
  {
    ToInt32(ToInt32(h * 32) - h + c)
  }

  /** The hash register after the code units `u`, starting from 0. */
  function Roll(u: seq<CodeUnit>): (h: int)
    ensures IsInt32(h)
  {
    if |u| == 0 then 0 else Step(Roll(u[..|u| - 1]), u[|u| - 1])
  }

  /** The number the hash approximates: the code units read as the digits
      of a number in base 31. */
  function Poly(u: seq<CodeUnit>): nat
  {
    if |u| == 0 then 0 else 31 * Poly(u[..|u| - 1]) + u[|u| - 1]
  }

  /** A step multiplies by 31 and adds the code unit, modulo 2^32. */
  lemma StepIsTimes31(h: int, c: CodeUnit)
    ensures (Step(h, c) - (31 * h + c)) % Modulus == 0
  {
    var a := ToInt32(h * 32);
    var b := ToInt32(a - h + c);
    assert (a - h * 32) % Modulus == 0;
    assert (b - (a - h + c)) % Modulus == 0;
    CongruentSum(b - (a - h + c), a - h * 32);
  }

  lemma CongruentSum(x: int, y: int)
    requires x % Modulus == 0 && y % Modulus == 0
    ensures (x + y) % Modulus == 0
  {
  }

  /** The register holds the base-31 polynomial of the input modulo 2^32. */
  lemma {:induction false} RollIsPoly(u: seq<CodeUnit>)
    ensures (Roll(u) - Poly(u)) % Modulus == 0
  {
    if |u| > 0 {
      var w := u[..|u| - 1];
      var c := u[|u| - 1];
      var r, p := Roll(w), Poly(w);
      RollIsPoly(w);
      StepIsTimes31(r, c);
      CongruentScale(r - p);
      var x, y := Step(r, c) - (31 * r + c), 31 * (r - p);
      assert Roll(u) - Poly(u) == x + y;
      CongruentSum(x, y);
    }
  }

  lemma CongruentScale(x: int)
    requires x % Modulus == 0
    ensures (31 * x) % Modulus == 0
  {
  }

  /** `Math.abs` of a register value. */
  function Magnitude(h: int): (m: nat)
    requires IsInt32(h)
    ensures m <= 0x8000_0000
    ensures m == h || m == -h
  {
    if h < 0 then -h else h
  }

  /** `s.padStart(width, '0')`. */
  function PadZeros(s: string, width: nat): (r: string)
    ensures |r| == if |s| >= width then |s| else width
    ensures r[|r| - |s|..] == s
    ensures forall i | 0 <= i < |r| - |s| :: r[i] == '0'
  {
    if |s| >= width then s else seq(width - |s|, _ => '0') + s
  }

  /** `simpleSyncHash`. */
  function Hash(data: string): string
  {
    "h" + PadZeros(ToBase(Magnitude(Roll(Utf16(data))), 16), 8)
  }

  /** The shape of every hash: `'h'` and exactly eight lower-case hex digits. */
  predicate IsHashText(s: string)
  {
    |s| == 9 && s[0] == 'h' && forall i | 1 <= i < 9 :: IsNumeral(s[i], 16)
  }

  /** Every hash has the shape `IsHashText`, and its hex digits spell the
      magnitude of the register: since that is at most 2^31, eight digits
      always suffice and the padding never truncates. */
  lemma HashFormat(data: string)
    ensures IsHashText(Hash(data))
    ensures ValueOf(Hash(data)[1..], 16) == Magnitude(Roll(Utf16(data)))
  {
    var m := Magnitude(Roll(Utf16(data)));
    var x := ToBase(m, 16);
    assert Pow(16, 8) == Modulus;
    ToBaseWidth(m, 16, 8);
    ToBaseRoundTrip(m, 16);
    LeadingZeros(8 - |x|, x, 16);
    var h := Hash(data);
    assert h[1..] == seq(8 - |x|, _ => '0') + x;
    forall i | 1 <= i < 9
      ensures IsNumeral(h[i], 16)
    {
      assert h[i] == h[1..][i - 1];
    }
  }

  /** The hash of the empty string is the all-zero text that stands for
      "no previous block". */
  lemma EmptyHash()
    ensures Hash("") == EmptyPrevious
  {
    assert ToBase(0, 16) == "0";
  }

  /** The kinds of ledger events (`AppEventType`). */
  datatype EventType =
    | Anomaly | Registration | Deterrent | Drone | Breach | Access | Report | System | Patrol

  /** `AppEvent`: an action as it is recorded. */
  datatype Event = Event(id: string, timestamp: string, kind: EventType, description: string)

  /** A ledger block: the event, the hash of the block before it and its
      own hash. */
  datatype Block = Block(event: Event, previousHash: string, hash: string)

  /** The `previousHash` of the first block. */
  const EmptyPrevious: string := "h00000000"

  /** The wall clock, read once per operation: `Date.now()` in milliseconds
      and `new Date().toISOString()` of the same instant. */
  datatype Clock = Clock(now: nat, iso: string)

  /** `createEvent`: the id is the clock reading in decimal. */
  function CreateEvent(clock: Clock, kind: EventType, description: string): (e: Event)
    ensures e.kind == kind && e.description == description && e.timestamp == clock.iso
    ensures AllNumerals(e.id, 10) && ValueOf(e.id, 10) == clock.now
  {
    ToBaseRoundTrip(clock.now, 10);
    Event(ToBase(clock.now, 10), clock.iso, kind, description)
  }

  /** The hash of the last block, or `EmptyPrevious` for an empty ledger. */
  function LastHash(ledger: seq<Block>): string
  {
    if |ledger| > 0 then ledger[|ledger| - 1].hash else EmptyPrevious
  }

  /** The hash `addEvent` seals a block with. */
  function Seal(e: Event, previousHash: string): string
  {
    Hash(e.id + e.timestamp + e.description + previousHash)
  }

  /** `addEvent`: append one block for `e`, linked to the last one. */
  function AddEvent(ledger: seq<Block>, e: Event): (r: seq<Block>)
    ensures |r| == |ledger| + 1
    ensures r[..|ledger|] == ledger
    ensures r[|ledger|].event == e
    ensures r[|ledger|].previousHash == LastHash(ledger)
    ensures r[|ledger|].hash == Seal(e, r[|ledger|].previousHash)
    ensures IsHashText(r[|ledger|].hash)
  {
    var prev := LastHash(ledger);
    HashFormat(e.id + e.timestamp + e.description + prev);
    ledger + [Block(e, prev, Seal(e, prev))]
  }

  /** Each block names the hash of the block before it; the first names
      `EmptyPrevious`. */
  predicate Linked(ledger: seq<Block>)
  {
    && (|ledger| > 0 ==> ledger[0].previousHash == EmptyPrevious)
    && (forall i | 0 < i < |ledger| :: ledger[i].previousHash == ledger[i - 1].hash)
  }

  /** From position `k` on, every block carries the hash of its contents. */
  predicate SealedFrom(ledger: seq<Block>, k: nat)
  {
    forall i | k <= i < |ledger| :: ledger[i].hash == Seal(ledger[i].event, ledger[i].previousHash)
  }

  /** A well-formed ledger: linked, sealed from `k` on, and every hash of
      the standard shape. */
  predicate Chain(ledger: seq<Block>, k: nat)
  {
    && Linked(ledger)
    && SealedFrom(ledger, k)
    && (forall i | 0 <= i < |ledger| :: IsHashText(ledger[i].hash))
  }

  /** Appending a block that is linked, sealed and of the standard shape
      keeps a ledger well formed. */
  lemma AppendKeepsChain(ledger: seq<Block>, b: Block, k: nat)
    requires Chain(ledger, k) && k <= |ledger|
    requires b.previousHash == LastHash(ledger)
    requires b.hash == Seal(b.event, b.previousHash)
    requires IsHashText(b.hash)
    ensures Chain(ledger + [b], k)
  {
    var r := ledger + [b];
    assert Linked(r);
    assert SealedFrom(r, k);
  }

  /** Appending a block keeps a ledger well formed. */
  lemma AddEventKeepsChain(ledger: seq<Block>, e: Event, k: nat)
    requires Chain(ledger, k)
    requires k <= |ledger|
    ensures Chain(AddEvent(ledger, e), k)
  {
    var r := AddEvent(ledger, e);
    assert r == ledger + [r[|ledger|]];
    AppendKeepsChain(ledger, r[|ledger|], k);
  }

  /** `addEvent` for each event in turn. */
  function AddEvents(ledger: seq<Block>, es: seq<Event>): seq<Block>
    decreases |es|
  {
    if |es| == 0 then ledger else AddEvents(AddEvent(ledger, es[0]), es[1..])
  }

  /** Recording events one after another keeps the ledger well formed,
      leaves the earlier blocks alone and records the events in order. */
  lemma {:induction false} AddEventsKeepsChain(ledger: seq<Block>, es: seq<Event>, k: nat)
    requires Chain(ledger, k) && k <= |ledger|
    ensures var r := AddEvents(ledger, es);
            && Chain(r, k)
            && |r| == |ledger| + |es|
            && r[..|ledger|] == ledger
            && (forall j | 0 <= j < |es| :: r[|ledger| + j].event == es[j])
    decreases |es|
  {
    if |es| > 0 {
      var l1 := AddEvent(ledger, es[0]);
      AddEventKeepsChain(ledger, es[0], k);
      AddEventsKeepsChain(l1, es[1..], k);
      var r := AddEvents(ledger, es);
      assert r[..|l1|][..|ledger|] == r[..|ledger|];
      forall j | 0 <= j < |es|
        ensures r[|ledger| + j].event == es[j]
      {
        if j == 0 {
          assert r[..|l1|][|ledger|] == r[|ledger|];
        } else {
          assert r[|l1| + (j - 1)].event == es[1..][j - 1];
        }
      }
    }
  }

  /** The block a fresh ledger starts with. It is sealed with the hash of
      the text `Genesis Block`, not of its own contents. */
  function Genesis(): Block
  {
    Block(Event("0", "1970-01-01T00:00:00.000Z", System, "Genesis Block - Ledger Initialized"),
          EmptyPrevious, Hash("Genesis Block"))
  }

  /** The ledger at start-up: the stored one, or the genesis block when
      nothing is stored, followed by the start-up event. */
  function InitialLedger(stored: seq<Block>, clock: Clock): (r: seq<Block>)
    ensures |r| == (if |stored| > 0 then |stored| else 1) + 1
    ensures |stored| > 0 ==> r[..|stored|] == stored
    ensures |stored| == 0 ==> r[0] == Genesis()
  {
    AddEvent(if |stored| > 0 then stored else [Genesis()],
             CreateEvent(clock, System, "System Online. All units deployed."))
  }

  /** The genesis block alone is a chain with nothing sealed. */
  lemma GenesisIsChain()
    ensures Chain([Genesis()], 1)
  {
    HashFormat("Genesis Block");
    FirstBlockChain(Genesis());
  }

  lemma FirstBlockChain(b: Block)
    requires b.previousHash == EmptyPrevious && IsHashText(b.hash)
    ensures Chain([b], 1)
  {
  }

  /** A fresh ledger is the genesis block and the start-up event, a chain
      sealed from the second block on. */
  lemma FreshLedgerIsChain(clock: Clock)
    ensures var r := InitialLedger([], clock);
            && |r| == 2 && r[0] == Genesis()
            && r[1].event == CreateEvent(clock, System, "System Online. All units deployed.")
            && Chain(r, 1)
  {
    GenesisIsChain();
    AddEventKeepsChain([Genesis()], CreateEvent(clock, System, "System Online. All units deployed."), 1);
  }
}

=== FILE: RoadGraph.dfy ===
/** The campus road network: ten named waypoints, twelve undirected roads,
    the adjacency lists built from them, nearest-waypoint lookup and the A*
    search the units use to plan their routes. */
module RoadGraph {
  import opened Common

  /** The waypoints of the road network (`gate`, `n_west_corner`, ...). */
  datatype NodeId =
    | Gate | NWestCorner | NEastCorner | SWestCorner | SEastCorner
    | NCentralCross | SCentralCross | WCentralCross | ECentralCross | Center

  /** The waypoints in declaration order: the order of every scan over them. */
  const AllNodes: seq<NodeId> :=
    [Gate, NWestCorner, NEastCorner, SWestCorner, SEastCorner,
     NCentralCross, SCentralCross, WCentralCross, ECentralCross, Center]

  lemma AllNodesComplete(n: NodeId)
    ensures n in AllNodes
  {
  }

  function NodeX(n: NodeId): int
  {
    match n
    case Gate => 50          case NWestCorner => 7     case NEastCorner => 93
    case SWestCorner => 7    case SEastCorner => 93    case NCentralCross => 50
    case SCentralCross => 50 case WCentralCross => 7   case ECentralCross => 93
    case Center => 50
  }

  function NodeY(n: NodeId): int
  {
    match n
    case Gate => 12          case NWestCorner => 12    case NEastCorner => 12
    case SWestCorner => 88   case SEastCorner => 88    case NCentralCross => 12
    case SCentralCross => 88 case WCentralCross => 50  case ECentralCross => 50
    case Center => 50
  }

  function NodePoint(n: NodeId): Point
  {
    Point(NodeX(n) as real, NodeY(n) as real)
  }

  /** The roads, in declaration order: the perimeter loop, then the central
      cross. `Gate` lies on the same spot as `NCentralCross` but is on no road. */
  const Edges: seq<(NodeId, NodeId)> :=
    [(NWestCorner, NCentralCross), (NCentralCross, NEastCorner),
     (NEastCorner, ECentralCross), (ECentralCross, SEastCorner),
     (SEastCorner, SCentralCross), (SCentralCross, SWestCorner),
     (SWestCorner, WCentralCross), (WCentralCross, NWestCorner),
     (NCentralCross, Center), (SCentralCross, Center),
     (WCentralCross, Center), (ECentralCross, Center)]

  /** The adjacency list of `n` as the start-up loop builds it from a road
      list: for every road `(u, v)` in order, `v` is pushed onto `u`'s list
      and `u` onto `v`'s. This is the part due to the roads from `i` on. */
  function AdjFrom(edges: seq<(NodeId, NodeId)>, n: NodeId, i: nat): seq<NodeId>
    requires i <= |edges|
    decreases |edges| - i
  {
    if i == |edges| then []
    else
      (if edges[i].0 == n then [edges[i].1] else [])
      + (if edges[i].1 == n then [edges[i].0] else [])
      + AdjFrom(edges, n, i + 1)
  }


  /** A neighbour of `n` is exactly an endpoint of a road whose other end is `n`. */
  lemma {:induction false} AdjFromMembers(edges: seq<(NodeId, NodeId)>, n: NodeId, m: NodeId, i: nat)
    requires i <= |edges|
    ensures m in AdjFrom(edges, n, i) <==> (n, m) in edges[i..] || (m, n) in edges[i..]
    decreases |edges| - i
  {
    if i < |edges| {
      AdjFromMembers(edges, n, m, i + 1);
      assert edges[i..] == [edges[i]] + edges[i + 1..];
    }
  }

  /** The adjacency relation is symmetric: roads are two-way. */
  lemma AdjacencySymmetric(u: NodeId, v: NodeId)
    ensures v in Adj(u) <==> u in Adj(v)
  {
    AdjacencyTable(u);
    AdjacencyTable(v);
    AdjFromMembers(Edges, u, v, 0);
    AdjFromMembers(Edges, v, u, 0);
  }

  /** The adjacency lists (`ADJ`), written out in the order the start-up
      loop produces them from `Edges`; `AdjacencyTable` proves that it does. */
  function Adj(n: NodeId): seq<NodeId>
  {
    match n
    case Gate => []
    case NWestCorner => [NCentralCross, WCentralCross]
    case NEastCorner => [NCentralCross, ECentralCross]
    case SWestCorner => [SCentralCross, WCentralCross]
    case SEastCorner => [ECentralCross, SCentralCross]
    case NCentralCross => [NWestCorner, NEastCorner, Center]
    case SCentralCross => [SEastCorner, SWestCorner, Center]
    case WCentralCross => [SWestCorner, NWestCorner, Center]
    case ECentralCross => [NEastCorner, SEastCorner, Center]
    case Center => [NCentralCross, SCentralCross, WCentralCross, ECentralCross]
  }

  /** The written-out lists are exactly those the start-up loop builds. */
  lemma AdjacencyTable(n: NodeId)
    ensures AdjFrom(Edges, n, 0) == Adj(n)
  {
    match n
    case Gate => AdjGate();
    case NWestCorner => AdjNWestCorner();
    case NEastCorner => AdjNEastCorner();
    case SWestCorner => AdjSWestCorner();
    case SEastCorner => AdjSEastCorner();
    case NCentralCross => AdjNCentralCross();
    case SCentralCross => AdjSCentralCross();
    case WCentralCross => AdjWCentralCross();
    case ECentralCross => AdjECentralCross();
    case Center => AdjCenter();
  }

  lemma AdjGate()
    ensures AdjFrom(Edges, Gate, 0) == Adj(Gate)
  {
    assert AdjFrom(Edges, Gate, 8) == [];
    assert AdjFrom(Edges, Gate, 4) == [];
  }

  lemma AdjNWestCorner()
    ensures AdjFrom(Edges, NWestCorner, 0) == Adj(NWestCorner)
  {
    assert AdjFrom(Edges, NWestCorner, 8) == [];
    assert AdjFrom(Edges, NWestCorner, 4) == [WCentralCross];
  }

  lemma AdjNEastCorner()
    ensures AdjFrom(Edges, NEastCorner, 0) == Adj(NEastCorner)
  {
    assert AdjFrom(Edges, NEastCorner, 8) == [];
    assert AdjFrom(Edges, NEastCorner, 4) == [];
  }

  lemma AdjSWestCorner()
    ensures AdjFrom(Edges, SWestCorner, 0) == Adj(SWestCorner)
  {
    assert AdjFrom(Edges, SWestCorner, 8) == [];
    assert AdjFrom(Edges, SWestCorner, 4) == [SCentralCross, WCentralCross];
  }

  lemma AdjSEastCorner()
    ensures AdjFrom(Edges, SEastCorner, 0) == Adj(SEastCorner)
  {
    assert AdjFrom(Edges, SEastCorner, 8) == [];
    assert AdjFrom(Edges, SEastCorner, 4) == [SCentralCross];
  }

  lemma AdjNCentralCross()
    ensures AdjFrom(Edges, NCentralCross, 0) == Adj(NCentralCross)
  {
    assert AdjFrom(Edges, NCentralCross, 8) == [Center];
    assert AdjFrom(Edges, NCentralCross, 4) == [Center];
  }

  lemma AdjSCentralCross()
    ensures AdjFrom(Edges, SCentralCross, 0) == Adj(SCentralCross)
  {
    assert AdjFrom(Edges, SCentralCross, 8) == [Center];
    assert AdjFrom(Edges, SCentralCross, 4) == [SEastCorner, SWestCorner, Center];
  }

  lemma AdjWCentralCross()
    ensures AdjFrom(Edges, WCentralCross, 0) == Adj(WCentralCross)
  {
    assert AdjFrom(Edges, WCentralCross, 8) == [Center];
    assert AdjFrom(Edges, WCentralCross, 4) == [SWestCorner, NWestCorner, Center];
  }

  lemma AdjECentralCross()
    ensures AdjFrom(Edges, ECentralCross, 0) == Adj(ECentralCross)
  {
    assert AdjFrom(Edges, ECentralCross, 8) == [Center];
    assert AdjFrom(Edges, ECentralCross, 4) == [Center];
  }

  lemma AdjCenter()
    ensures AdjFrom(Edges, Center, 0) == Adj(Center)
  {
    assert AdjFrom(Edges, Center, 8) == [NCentralCross, SCentralCross, WCentralCross, ECentralCross];
    assert AdjFrom(Edges, Center, 4) == [NCentralCross, SCentralCross, WCentralCross, ECentralCross];
  }


  /** `Gate` is on no road: it has no neighbours and is nobody's neighbour. */
  lemma GateIsolated()
    ensures Adj(Gate) == []
    ensures forall n: NodeId :: Gate !in Adj(n)
  {
  }

  /** Every road runs straight north-south or east-west between distinct points. */
  lemma EdgeAxisAligned(u: NodeId, v: NodeId)
    requires v in Adj(u)
    ensures (NodeX(u) == NodeX(v) && NodeY(u) != NodeY(v))
         || (NodeY(u) == NodeY(v) && NodeX(u) != NodeX(v))
  {
  }

  function Abs(n: int): nat { if n < 0 then -n else n }

  /** The length of a road, `Math.hypot` of its extent: exact, since every
      road is axis-aligned. */
  function EdgeCost(u: NodeId, v: NodeId): (c: int)
    requires v in Adj(u)
    ensures c > 0
  {
    EdgeAxisAligned(u, v);
    var dx := NodeX(v) - NodeX(u);
    var dy := NodeY(v) - NodeY(u);
    if dx == 0 then Abs(dy) else Abs(dx)
  }

  /** The cost of a road is its Euclidean length. */
  lemma EdgeCostIsLength(u: NodeId, v: NodeId)
    requires v in Adj(u)
    ensures var dx := NodeX(v) - NodeX(u);
            var dy := NodeY(v) - NodeY(u);
            EdgeCost(u, v) * EdgeCost(u, v) == dx * dx + dy * dy
  {
    EdgeAxisAligned(u, v);
  }

  /** The square of the A* heuristic: the straight-line distance to the goal. */
  function HeuristicSq(n: NodeId, goal: NodeId): nat
  {
    var dx := NodeX(n) - NodeX(goal);
    var dy := NodeY(n) - NodeY(goal);
    dx * dx + dy * dy
  }

  /** Exact comparison of two A* scores, `a + sqrt(p) < b + sqrt(q)`, by
      squaring both sides where their signs allow it. */
  function SqrtSumLess(a: int, p: nat, b: int, q: nat): bool
  {
    var c := (b - a) as real;
    if c >= 0.0 then
      // sqrt(p) < c + sqrt(q)  iff  p - q - c^2 < 2c sqrt(q)
      var m := p as real - q as real - c * c;
      m < 0.0 || m * m < 4.0 * (c * c) * q as real
    else
      // sqrt(p) + d < sqrt(q) with d = -c  iff  2d sqrt(p) < q - p - d^2
      var m := q as real - p as real - c * c;
      m > 0.0 && 4.0 * (c * c) * p as real < m * m
  }

  /** Squaring is strictly monotone on the non-negative reals. */
  lemma SquareLess(x: real, y: real)
    requires x >= 0.0 && y >= 0.0
    ensures x < y <==> Mul(x, x) < Mul(y, y)
  {
    if x < y {
      MulMonotone(x, y, x);
      MulStrict(x, y, y);
      assert Mul(y, x) == Mul(x, y);
    } else {
      MulMonotone(y, x, y);
      MulMonotone(y, x, x);
      assert Mul(y, x) == Mul(x, y);
    }
  }

  lemma GapNonNegative(c: real, p: real, q: real, s: real, t: real)
    requires c >= 0.0
    requires s >= 0.0 && Mul(s, s) == p
    requires t >= 0.0 && Mul(t, t) == q
    ensures var m := p - q - c * c;
            (m < 0.0 || m * m < 4.0 * (c * c) * q) <==> s < c + t
  {
    var m := p - q - c * c;
    var l := 2.0 * Mul(c, t);
    MulMonotone(0.0, c, t);
    SquareLess(s, c + t);
    assert Mul(c + t, c + t) == c * c + l + Mul(t, t);
    assert s < c + t <==> m < l;
    if m >= 0.0 {
      SquareLess(m, l);
      assert Mul(l, l) == 4.0 * (c * c) * Mul(t, t);
    }
  }

  lemma GapNegative(d: real, p: real, q: real, s: real, t: real)
    requires d > 0.0
    requires s >= 0.0 && Mul(s, s) == p
    requires t >= 0.0 && Mul(t, t) == q
    ensures var m := q - p - d * d;
            (m > 0.0 && 4.0 * (d * d) * p < m * m) <==> s + d < t
  {
    var m := q - p - d * d;
    var l := 2.0 * Mul(d, s);
    MulMonotone(0.0, d, s);
    SquareLess(s + d, t);
    assert Mul(s + d, s + d) == Mul(s, s) + l + d * d;
    assert s + d < t <==> l < m;
    if m > 0.0 {
      SquareLess(l, m);
      assert Mul(l, l) == 4.0 * (d * d) * Mul(s, s);
    }
  }

  /** `SqrtSumLess` decides the comparison of the real scores for whatever
      non-negative square roots `s` of `p` and `t` of `q` are. */
  lemma SqrtSumLessCorrect(a: int, p: nat, b: int, q: nat, s: real, t: real)
    requires s >= 0.0 && s * s == p as real
    requires t >= 0.0 && t * t == q as real
    ensures SqrtSumLess(a, p, b, q) <==> a as real + s < b as real + t
  {
    var c := (b - a) as real;
    if c >= 0.0 {
      GapNonNegative(c, p as real, q as real, s, t);
    } else {
      GapNegative(-c, p as real, q as real, s, t);
      assert (-c) * (-c) == c * c;
    }
  }

  /** Consecutive waypoints of `p` are joined by a road. */
  predicate IsWalk(p: seq<NodeId>)
  {
    forall i | 0 <= i < |p| - 1 :: p[i + 1] in Adj(p[i])
  }

  /** A* state: the open set in insertion order, the `cameFrom` links and
      the finite g-scores (a missing entry is the source's `Infinity`). The
      f-score of a node is always its g-score plus its heuristic, so it is
      not stored. */
  datatype SearchState = SearchState(open: seq<NodeId>, cameFrom: map<NodeId, NodeId>, g: map<NodeId, int>)

  /** `v`'s `cameFrom` link is a road from a node with a smaller g-score that
      itself leads back to the start. */
  predicate ParentOk(st: SearchState, start: NodeId, v: NodeId)
    requires v in st.cameFrom
  {
    var p := st.cameFrom[v];
    && v in st.g && p in st.g
    && v in Adj(p)
    && st.g[p] < st.g[v]
    && (p == start || p in st.cameFrom)
  }

  predicate SearchInv(st: SearchState, start: NodeId)
  {
    && start in st.g && st.g[start] == 0
    && start !in st.cameFrom
    && (forall v | v in st.g :: st.g[v] >= 0)
    && (forall v | v in st.open :: v in st.g && (v == start || v in st.cameFrom))
    && (forall v | v in st.cameFrom :: ParentOk(st, start, v))
  }

  /** `openSet.delete(v)`. */
  function Remove(s: seq<NodeId>, v: NodeId): (r: seq<NodeId>)
    ensures forall x :: x in r <==> x in s && x != v
  {
    if |s| == 0 then []
    else (if s[0] == v then [] else [s[0]]) + Remove(s[1..], v)
  }

  /** The open node with the least f-score, the first one on ties. */
  function SelectFrom(open: seq<NodeId>, g: map<NodeId, int>, goal: NodeId, i: nat, best: nat): (k: nat)
    requires best < i <= |open|
    requires forall v | v in open :: v in g
    ensures k < |open|
    decreases |open| - i
  {
    if i == |open| then best
    else if SqrtSumLess(g[open[i]], HeuristicSq(open[i], goal), g[open[best]], HeuristicSq(open[best], goal))
    then SelectFrom(open, g, goal, i + 1, i)
    else SelectFrom(open, g, goal, i + 1, best)
  }

  /** The state after recording `cur` as the parent of `nb` at g-score `t`. */
  function Update(st: SearchState, cur: NodeId, nb: NodeId, t: int): SearchState
  {
    SearchState(if nb in st.open then st.open else st.open + [nb],
                st.cameFrom[nb := cur], st.g[nb := t])
  }

  /** An improving update keeps every parent link sound. */
  lemma UpdateParentOk(st: SearchState, start: NodeId, cur: NodeId, nb: NodeId, t: int, v: NodeId)
    requires SearchInv(st, start)
    requires cur in st.g && (cur == start || cur in st.cameFrom)
    requires nb in Adj(cur) && nb != cur && st.g[cur] < t
    requires nb !in st.g || t < st.g[nb]
    requires v in Update(st, cur, nb, t).cameFrom
    ensures ParentOk(Update(st, cur, nb, t), start, v)
  {
    if v != nb {
      assert ParentOk(st, start, v);
    }
  }

  /** An improving update through a road out of an expanded node keeps the
      search invariant. */
  lemma UpdateInv(st: SearchState, start: NodeId, cur: NodeId, nb: NodeId, t: int)
    requires SearchInv(st, start)
    requires cur in st.g && (cur == start || cur in st.cameFrom)
    requires nb in Adj(cur) && st.g[cur] < t
    requires nb !in st.g || t < st.g[nb]
    ensures SearchInv(Update(st, cur, nb, t), start)
  {
    var st' := Update(st, cur, nb, t);
    assert nb != cur && nb != start;
    forall v | v in st'.cameFrom
      ensures ParentOk(st', start, v)
    {
      UpdateParentOk(st, start, cur, nb, t, v);
    }
  }

  /** The inner loop of A*: relax the roads from `cur` in adjacency order. */
  function Relax(st: SearchState, start: NodeId, cur: NodeId, nbs: seq<NodeId>): (r: SearchState)
    requires SearchInv(st, start)
    requires cur in st.g && (cur == start || cur in st.cameFrom)
    requires forall k | 0 <= k < |nbs| :: nbs[k] in Adj(cur)
    ensures SearchInv(r, start)
    decreases |nbs|
  {
    if |nbs| == 0 then st
    else
      var nb := nbs[0];
      var t := st.g[cur] + EdgeCost(cur, nb);
      var st' :=
        if nb !in st.g || t < st.g[nb] then
          UpdateInv(st, start, cur, nb, t);
          Update(st, cur, nb, t)
        else st;
      Relax(st', start, cur, nbs[1..])
  }

  /** Path reconstruction: follow the `cameFrom` links back to the start. */
  function Reconstruct(st: SearchState, start: NodeId, cur: NodeId): (r: seq<NodeId>)
    requires SearchInv(st, start)
    requires cur in st.g && (cur == start || cur in st.cameFrom)
    ensures |r| >= 1 && r[0] == start && r[|r| - 1] == cur
    ensures IsWalk(r)
    decreases st.g[cur]
  {
    if cur in st.cameFrom then
      assert ParentOk(st, start, cur);
      Reconstruct(st, start, st.cameFrom[cur]) + [cur]
    else [cur]
  }

  /** Bound on the iterations of the A* loop (see README). */
  const AStarFuel: nat := 100

  /** The outer loop of A*: expand the open node with the least f-score. */
  function SearchLoop(st: SearchState, start: NodeId, goal: NodeId, fuel: nat): (r: seq<NodeId>)
    requires SearchInv(st, start)
    ensures r != [] ==> r[0] == start && r[|r| - 1] == goal && IsWalk(r)
    decreases fuel
  {
    if |st.open| == 0 || fuel == 0 then []
    else
      var cur := st.open[SelectFrom(st.open, st.g, goal, 1, 0)];
      if cur == goal then Reconstruct(st, start, cur)
      else
        var closed := SearchState(Remove(st.open, cur), st.cameFrom, st.g);
        SearchLoop(Relax(closed, start, cur, Adj(cur)), start, goal, fuel - 1)
  }

  /** `findPath`: the waypoints of a route from `start` to `goal`, or `[]`
      when the search finds none. */
  function FindPath(start: NodeId, goal: NodeId): (r: seq<NodeId>)
    ensures start == goal ==> r == [start]
    ensures r != [] ==> r[0] == start && r[|r| - 1] == goal && IsWalk(r)
  {
    if start == goal then [start]
    else SearchLoop(SearchState([start], map[], map[start := 0]), start, goal, AStarFuel)
  }

  /** Nothing leads to or from the gate waypoint, so every route that starts
      or ends there, other than the trivial one, is empty. */
  lemma FindPathGateEmpty(n: NodeId)
    requires n != Gate
    ensures FindPath(Gate, n) == []
    ensures FindPath(n, Gate) == []
  {
    var r := FindPath(Gate, n);
    if r != [] {
      WalkFromGate(r);
      assert false;
    }
    var r' := FindPath(n, Gate);
    if r' != [] {
      WalkToGate(r');
      assert false;
    }
  }

  /** A walk that leaves the gate waypoint never gets anywhere else. */
  lemma WalkFromGate(r: seq<NodeId>)
    requires r != [] && r[0] == Gate && IsWalk(r)
    ensures r == [Gate]
  {
    if |r| > 1 {
      WalkStep(r, 0);
      assert false;
    }
  }

  /** A walk that reaches the gate waypoint can only have started there. */
  lemma WalkToGate(r: seq<NodeId>)
    requires r != [] && r[|r| - 1] == Gate && IsWalk(r)
    ensures r == [Gate]
  {
    GateIsolated();
    if |r| > 1 {
      WalkStep(r, |r| - 2);
      assert false;
    }
  }

  lemma WalkStep(r: seq<NodeId>, i: nat)
    requires IsWalk(r) && i + 1 < |r|
    ensures r[i + 1] in Adj(r[i])
  {
  }

  /** The position in `AllNodes` of the waypoint nearest to `p`: the first
      one of least distance. */
  function NearestIndex(p: Point): (k: nat)
    ensures k < |AllNodes|
    ensures forall j | 0 <= j < |AllNodes| ::
              DistSq(p, NodePoint(AllNodes[k])) <= DistSq(p, NodePoint(AllNodes[j]))
    ensures forall j | 0 <= j < k ::
              DistSq(p, NodePoint(AllNodes[k])) < DistSq(p, NodePoint(AllNodes[j]))
  {
    var r := FirstMin(AllNodes, (n: NodeId) => true, (n: NodeId) => DistSq(p, NodePoint(n)));
    r.value
  }

  /** `getNearestRoadNode`. */
  function Nearest(p: Point): NodeId
  {
    AllNodes[NearestIndex(p)]
  }

  /** Anywhere within 1.5 of the gate's coordinates the gate waypoint is
      the nearest: it ties with the north central crossing, which lies on
      the same spot, and is declared first. */
  lemma NearestNearGate(p: Point)
    requires DistSq(p, NodePoint(Gate)) < 2.25
    ensures Nearest(p) == Gate
  {
    SmallSquares(p.x - 50.0, p.y - 12.0);
    var key := (n: NodeId) => DistSq(p, NodePoint(n));
    forall j | 0 <= j < |AllNodes|
      ensures key(AllNodes[0]) <= key(AllNodes[j])
    {
    }
    FirstMinUnique(AllNodes, (n: NodeId) => true, key, 0, NearestIndex(p));
  }

  /** Both legs of a right triangle with hypotenuse below 1.5 are below 1.5. */
  lemma SmallSquares(a: real, b: real)
    requires a * a + b * b < 2.25
    ensures -1.5 < a < 1.5 && -1.5 < b < 1.5
  {
    SquareSign(a);
    SquareSign(b);
    SmallSquare(a, b * b);
    SmallSquare(b, a * a);
  }

  lemma SmallSquare(a: real, rest: real)
    requires a * a + rest < 2.25 && rest >= 0.0
    ensures -1.5 < a < 1.5
  {
    if a >= 1.5 {
      MulMonotone(1.5, a, 1.5);
      MulMonotone(1.5, a, a);
    } else if a <= -1.5 {
      MulMonotone(1.5, -a, 1.5);
      MulMonotone(1.5, -a, -a);
    }
  }

  lemma NearestAtGate()
    ensures Nearest(Point(50.0, 12.0)) == Gate
  {
    NearestNearGate(Point(50.0, 12.0));
  }
}

=== FILE: Simulation.dfy ===
/** The simulation clock's tick: every unit takes a step, secured suspects
    are taken off the anomaly list, and a pending suspicious report may
    escalate into a robbery. Also the world the simulation starts from. */
module Simulation {
  import opened Common
  import opened Layout
  import opened Units
  import opened Dispatch
  import Ledger

  /** Every unit's step against the anomalies as they were when the tick
      began; `draws[i]` holds the random draws of unit `i`. */
  function StepAll(units: seq<Unit>, anomalies: seq<Anomaly>, now: nat, draws: seq<Draws>): (r: seq<StepResult>)
    requires |draws| == |units| && forall i | 0 <= i < |draws| :: ValidDraws(draws[i])
    ensures |r| == |units|
    ensures forall i | 0 <= i < |units| :: r[i] == StepUnit(units[i], anomalies, now, draws[i])
  {
    seq(|units|, i requires 0 <= i < |units| => StepUnit(units[i], anomalies, now, draws[i]))
  }

  function UnitsOf(rs: seq<StepResult>): (us: seq<Unit>)
    ensures |us| == |rs| && forall i | 0 <= i < |rs| :: us[i] == rs[i].unit
  {
    seq(|rs|, i requires 0 <= i < |rs| => rs[i].unit)
  }

  /** `anomalies.filter(a => a.description !== desc)`. */
  function RemoveDescribed(anomalies: seq<Anomaly>, desc: string): (r: seq<Anomaly>)
    ensures |r| <= |anomalies|
    ensures forall a :: a in r <==> a in anomalies && a.description != desc
  {
    if |anomalies| == 0 then []
    else
      var rest := RemoveDescribed(anomalies[1..], desc);
      assert forall a :: a in anomalies <==> a == anomalies[0] || a in anomalies[1..];
      if anomalies[0].description == desc then rest else [anomalies[0]] + rest
  }

  /** Filtering keeps the order of what stays: an anomaly list without the
      description is left as it is. */
  lemma {:induction false} RemoveAbsent(anomalies: seq<Anomaly>, desc: string)
    requires forall i | 0 <= i < |anomalies| :: anomalies[i].description != desc
    ensures RemoveDescribed(anomalies, desc) == anomalies
  {
    if |anomalies| > 0 {
      RemoveAbsent(anomalies[1..], desc);
    }
  }

  /** The bookkeeping for each suspect secured during the tick, in unit
      order: the anomaly is cleared, the arrest is logged and the breach
      details are dropped. */
  function Secure(w: World, rs: seq<StepResult>, clock: Ledger.Clock): (r: World)
    decreases |rs|
  {
    if |rs| == 0 then w else Secure(SecureOne(w, rs[0], clock), rs[1..], clock)
  }

  /** One suspect's bookkeeping: the first step of `Secure`. */
  function SecureOne(w: World, res: StepResult, clock: Ledger.Clock): (r: World)
  {
    match res.secured
    case None => w
    case Some(a) =>
      Log(w.(anomalies := RemoveDescribed(w.anomalies, a.description)), clock, Ledger.Patrol,
          "Suspect apprehended by " + res.unit.name + ". Scene is secure.")
        .(breachDetails := None)
  }

  /** Securing touches only the anomalies, the ledger, which gains one
      entry per suspect, and the breach details. */
  lemma {:induction false} SecureFacts(w: World, rs: seq<StepResult>, clock: Ledger.Clock)
    ensures var r := Secure(w, rs, clock);
            && r.units == w.units && r.stations == w.stations && r.breachActive == w.breachActive
            && r.chat == w.chat && r.reports == w.reports
            && Extends(w.ledger, r.ledger)
            && |r.ledger| == |w.ledger| + CountSecured(rs)
    decreases |rs|
  {
    if |rs| > 0 {
      var w' := SecureOne(w, rs[0], clock);
      assert Secure(w, rs, clock) == Secure(w', rs[1..], clock);
      SecureFacts(w', rs[1..], clock);
      ExtendsTrans(w.ledger, w'.ledger, Secure(w', rs[1..], clock).ledger);
    }
  }

  /** No anomaly is added while securing, and none survives whose
      description a secured anomaly had. */
  lemma {:induction false} SecureClears(w: World, rs: seq<StepResult>, clock: Ledger.Clock)
    ensures var r := Secure(w, rs, clock);
            && (forall a :: a in r.anomalies ==> a in w.anomalies)
            && (forall i | 0 <= i < |rs| && rs[i].secured.Some? ::
                  forall a | a in r.anomalies :: a.description != rs[i].secured.value.description)
    decreases |rs|
  {
    if |rs| > 0 {
      var w' := SecureOne(w, rs[0], clock);
      assert Secure(w, rs, clock) == Secure(w', rs[1..], clock);
      SecureClears(w', rs[1..], clock);
      var r := Secure(w, rs, clock);
      forall i | 0 <= i < |rs| && rs[i].secured.Some?
        ensures forall a | a in r.anomalies :: a.description != rs[i].secured.value.description
      {
        if i > 0 {
          assert rs[1..][i - 1] == rs[i];
        }
      }
    }
  }

  /** The breach details are dropped exactly when some suspect was
      secured. */
  lemma {:induction false} SecureDropsDetails(w: World, rs: seq<StepResult>, clock: Ledger.Clock)
    ensures Secure(w, rs, clock).breachDetails
              == if CountSecured(rs) > 0 then None else w.breachDetails
    decreases |rs|
  {
    if |rs| > 0 {
      var w' := SecureOne(w, rs[0], clock);
      assert Secure(w, rs, clock) == Secure(w', rs[1..], clock);
      SecureDropsDetails(w', rs[1..], clock);
    }
  }

  /** `CountSecured` counts the positions that secured a suspect. */
  lemma {:induction false} CountSecuredPositive(rs: seq<StepResult>)
    ensures CountSecured(rs) > 0 <==> exists i | 0 <= i < |rs| :: rs[i].secured.Some?
    decreases |rs|
  {
    if |rs| > 0 {
      CountSecuredPositive(rs[1..]);
      if exists i | 0 <= i < |rs[1..]| :: rs[1..][i].secured.Some? {
        var i :| 0 <= i < |rs[1..]| && rs[1..][i].secured.Some?;
        assert rs[i + 1].secured.Some?;
      }
      if rs[0].secured.None? && exists i | 0 <= i < |rs| :: rs[i].secured.Some? {
        var i :| 0 <= i < |rs| && rs[i].secured.Some?;
        assert rs[1..][i - 1].secured.Some?;
      }
    }
  }

  /** How many of the steps secured a suspect. */
  function CountSecured(rs: seq<StepResult>): nat
  {
    if |rs| == 0 then 0 else (if rs[0].secured.Some? then 1 else 0) + CountSecured(rs[1..])
  }

  /** The unit half of the tick: `setUnits(prev => prev.map(stepUnit))`
      and the arrests it reports. */
  function Tick(w: World, clock: Ledger.Clock, draws: seq<Draws>): (r: World)
    requires |draws| == |w.units| && forall i | 0 <= i < |draws| :: ValidDraws(draws[i])
  {
    var rs := StepAll(w.units, w.anomalies, clock.now, draws);
    Secure(w.(units := UnitsOf(rs)), rs, clock)
  }

  /** A tick keeps every unit's identity and the invariant of the world. */
  lemma TickKeepsWorldOk(w: World, clock: Ledger.Clock, draws: seq<Draws>)
    requires WorldOk(w)
    requires |draws| == |w.units| && forall i | 0 <= i < |draws| :: ValidDraws(draws[i])
    ensures var r := Tick(w, clock, draws);
            && WorldOk(r) && |r.units| == |w.units|
            && (forall i | 0 <= i < |w.units| :: r.units[i].id == w.units[i].id && r.units[i].name == w.units[i].name)
            && r.breachActive == w.breachActive && Extends(w.ledger, r.ledger)
  {
    var rs := StepAll(w.units, w.anomalies, clock.now, draws);
    var us := UnitsOf(rs);
    forall i | 0 <= i < |us|
      ensures UnitOk(us[i])
    {
      StepKeepsStatusFits(w.units[i], w.anomalies, clock.now, draws[i]);
      if w.units[i].kind.Drone? {
        StepKeepsBatteryInRange(w.units[i], w.anomalies, clock.now, draws[i]);
      }
    }
    forall i, j | 0 <= i < |us| && 0 <= j < |us| && us[i].id == us[j].id
      ensures i == j
    {
      assert us[i].id == w.units[i].id && us[j].id == w.units[j].id;
    }
    SecureFacts(w.(units := us), rs, clock);
    SecureKeepsWorldOk(w.(units := us), rs, clock);
  }

  /** Securing suspects keeps the invariant. */
  lemma {:induction false} SecureKeepsWorldOk(w: World, rs: seq<StepResult>, clock: Ledger.Clock)
    requires WorldOk(w)
    ensures WorldOk(Secure(w, rs, clock))
    decreases |rs|
  {
    if |rs| > 0 {
      if rs[0].secured.Some? {
        var w0 := w.(anomalies := RemoveDescribed(w.anomalies, rs[0].secured.value.description));
        LogKeepsWorldOk(w0, clock, Ledger.Patrol, "Suspect apprehended by " + rs[0].unit.name + ". Scene is secure.");
      }
      SecureKeepsWorldOk(SecureOne(w, rs[0], clock), rs[1..], clock);
    }
  }

  // ---------------------------------------------------------- escalation

  /** `s.includes(sub)`. */
  predicate Contains(s: string, sub: string)
  {
    exists i | 0 <= i <= |s| - |sub| :: OccursAt(s, sub, i)
  }

  predicate OccursAt(s: string, sub: string, i: int)
    requires 0 <= i <= |s| - |sub|
  {
    s[i..i + |sub|] == sub
  }

  function Suspicious(r: Report): bool { Contains(r.description, "Suspicious") }

  /** The anomaly a suspicious report escalates into. */
  function Robbery(location: Point): Anomaly
  {
    Anomaly("Robbery in progress!", location, High, true)
  }

  /** `reports.filter(r => r.id !== id)`. */
  function RemoveReport(reports: seq<Report>, id: string): (r: seq<Report>)
    ensures |r| <= |reports|
    ensures forall x :: x in r <==> x in reports && x.id != id
  {
    if |reports| == 0 then []
    else
      var rest := RemoveReport(reports[1..], id);
      assert forall x :: x in reports <==> x == reports[0] || x in reports[1..];
      if reports[0].id == id then rest else [reports[0]] + rest
  }

  /** The robbery rule of the tick: when the random draw `fires`, no robbery
      was among the anomalies at the start of the tick (`before`) and a
      resident has reported something suspicious, the first such report
      becomes a high-threat robbery, is answered autonomously and is
      removed. */
  function Escalate(w: World, before: seq<Anomaly>, fires: bool, clock: Ledger.Clock): (r: World)
    ensures !fires || HasRobbery(before) ==> r == w
    ensures (forall i | 0 <= i < |w.reports| :: !Suspicious(w.reports[i])) ==> r == w
  {
    if !fires then w
    else match FirstWhere(w.reports, Suspicious)
      case None => w
      case Some(k) =>
        if HasRobbery(before) then w
        else
          var report := w.reports[k];
          var a := Robbery(report.location);
          var w1 := AutonomousResponse(w.(anomalies := w.anomalies + [a]), a, clock);
          w1.(reports := RemoveReport(w1.reports, report.id))
  }

  /** When a robbery does escalate, the protocol is up, the robbery is the
      last anomaly, the residents are warned about the place, and the
      report that caused it is gone. */
  lemma EscalateFires(w: World, before: seq<Anomaly>, clock: Ledger.Clock)
    requires !HasRobbery(before)
    requires FirstWhere(w.reports, Suspicious).Some?
    ensures var k := FirstWhere(w.reports, Suspicious).value;
            var r := Escalate(w, before, true, clock);
            && r.breachActive
            && HasRobbery(r.anomalies)
            && r.anomalies == w.anomalies + [Robbery(w.reports[k].location)]
            && r.chat == w.chat + [Alert(w.reports[k].location, clock)]
            && (forall x | x in r.reports :: x in w.reports && x.id != w.reports[k].id)
            && |r.reports| < |w.reports|
  {
    var k := FirstWhere(w.reports, Suspicious).value;
    var a := Robbery(w.reports[k].location);
    var w0 := w.(anomalies := w.anomalies + [a]);
    HighResponseFacts(w0, a, clock);
    var r := Escalate(w, before, true, clock);
    assert r.anomalies[|w.anomalies|].isRobbery;
    assert w.reports[k] !in r.reports;
    ReportsShrink(w.reports, w.reports[k].id, k);
  }

  lemma {:induction false} ReportsShrink(reports: seq<Report>, id: string, k: nat)
    requires k < |reports| && reports[k].id == id
    ensures |RemoveReport(reports, id)| < |reports|
  {
    if k > 0 {
      ReportsShrink(reports[1..], id, k - 1);
    }
  }

  lemma EscalateKeepsWorldOk(w: World, before: seq<Anomaly>, fires: bool, clock: Ledger.Clock)
    requires WorldOk(w)
    ensures WorldOk(Escalate(w, before, fires, clock))
  {
    if fires && FirstWhere(w.reports, Suspicious).Some? && !HasRobbery(before) {
      var k := FirstWhere(w.reports, Suspicious).value;
      var a := Robbery(w.reports[k].location);
      AutonomousResponseKeepsWorldOk(w.(anomalies := w.anomalies + [a]), a, clock);
    }
  }

  /** The whole interval body: the units' tick against the anomalies at
      its start, then the robbery rule against the same anomalies. */
  function Round(w: World, clock: Ledger.Clock, draws: seq<Draws>, fires: bool): (r: World)
    requires |draws| == |w.units| && forall i | 0 <= i < |draws| :: ValidDraws(draws[i])
  {
    Escalate(Tick(w, clock, draws), w.anomalies, fires, clock)
  }

  /** Each round keeps the world's invariant. */
  lemma RoundKeepsWorldOk(w: World, clock: Ledger.Clock, draws: seq<Draws>, fires: bool)
    requires WorldOk(w)
    requires |draws| == |w.units| && forall i | 0 <= i < |draws| :: ValidDraws(draws[i])
    ensures WorldOk(Round(w, clock, draws, fires))
  {
    TickKeepsWorldOk(w, clock, draws);
    EscalateKeepsWorldOk(Tick(w, clock, draws), w.anomalies, fires, clock);
  }

  // ------------------------------------------------------------ start-up

  const DroneSectors: seq<Sector> := [Alpha, Bravo, Charlie, Delta, Alpha, Bravo]

  /** Drone `i` (from 0) of the start-up fleet; `r` is the draw that sets
      its battery between 80 and 100. */
  function StartDrone(i: nat, r: real): Unit
    requires i < 6
  {
    Unit("d" + ToBase(i + 1, 10), "DG-" + ToBase(i + 7, 10),
         Drone(80.0 + r * 20.0, None, [], Some(DroneSectors[i])),
         Patrolling, Point(45.0 + 4.0 * i as real, 85.0), None, None, [], 0)
  }

  /** A start-up drone is well formed, patrolling, with a battery between
      80 and 100, and its id starts with `d`. */
  lemma StartDroneOk(i: nat, r: real)
    requires i < 6 && UnitInterval(r)
    ensures var u := StartDrone(i, r);
            && UnitOk(u) && u.kind.Drone? && u.status == Patrolling
            && 80.0 <= u.kind.battery < FullBattery && u.id[0] == 'd'
  {
  }

  /** The fleet at start-up: a guard, a vehicle, the police car waiting off
      the map and six drones. */
  function InitialUnits(rs: seq<real>): (us: seq<Unit>)
    requires |rs| == 6 && forall i | 0 <= i < 6 :: UnitInterval(rs[i])
    ensures |us| == 9
    ensures UnitsOk(us)
    ensures forall i | 0 <= i < 9 :: us[i].kind.Drone? <==> i >= 3
    ensures forall i | 3 <= i < 9 :: 80.0 <= us[i].kind.battery < FullBattery && us[i].status == Patrolling
  {
    FleetOk(rs);
    Fleet(rs)
  }

  /** The units listed at start-up, in order. */
  function Fleet(rs: seq<real>): seq<Unit>
    requires |rs| == 6 && forall i | 0 <= i < 6 :: UnitInterval(rs[i])
  {
    [Unit("p1", "Patrol 1", Guard, Patrolling, Point(20.0, 88.0), None, None, [], 0),
     Unit("v1", "Vehicle 1", Vehicle, Patrolling, Point(70.0, 88.0), None, None, [], 0),
     Unit("police1", "Police-1", Police, Stationary, OffMapStation, None, None, [], 0)]
    + seq(6, i requires 0 <= i < 6 => StartDrone(i, rs[i]))
  }

  lemma FleetOk(rs: seq<real>)
    requires |rs| == 6 && forall i | 0 <= i < 6 :: UnitInterval(rs[i])
    ensures var us := Fleet(rs);
            && |us| == 9 && UnitsOk(us)
            && (forall i | 0 <= i < 9 :: us[i].kind.Drone? <==> i >= 3)
            && (forall i | 3 <= i < 9 :: 80.0 <= us[i].kind.battery < FullBattery && us[i].status == Patrolling)
  {
    var us := Fleet(rs);
    forall i | 3 <= i < 9
      ensures UnitOk(us[i]) && us[i].kind.Drone? && us[i].status == Patrolling
      ensures 80.0 <= us[i].kind.battery < FullBattery && us[i].id[0] == 'd'
    {
      assert us[i] == StartDrone(i - 3, rs[i - 3]);
      StartDroneOk(i - 3, rs[i - 3]);
    }
    FleetIdsDistinct(rs);
  }

  lemma FleetIdsDistinct(rs: seq<real>)
    requires |rs| == 6 && forall i | 0 <= i < 6 :: UnitInterval(rs[i])
    ensures UniqueIds(Fleet(rs))
  {
    var us := Fleet(rs);
    FleetIds(rs);
    forall i, j | 0 <= i < 9 && 0 <= j < 9 && us[i].id == us[j].id
      ensures i == j
    {
      if i >= 3 && j >= 3 {
        DroneIdsDistinct(i - 3, j - 3);
      } else if i >= 3 || j >= 3 {
        assert false;
      }
    }
  }

  /** The fleet's ids: `p1`, `v1`, `police1`, then `d1` … `d6`. */
  lemma FleetIds(rs: seq<real>)
    requires |rs| == 6 && forall i | 0 <= i < 6 :: UnitInterval(rs[i])
    ensures var us := Fleet(rs);
            && |us| == 9 && us[0].id == "p1" && us[1].id == "v1" && us[2].id == "police1"
            && forall i | 3 <= i < 9 :: us[i].id == "d" + ToBase(i - 2, 10) && us[i].id[0] == 'd'
  {
    var us := Fleet(rs);
    forall i | 3 <= i < 9
      ensures us[i].id == "d" + ToBase(i - 2, 10) && us[i].id[0] == 'd'
    {
      assert us[i] == StartDrone(i - 3, rs[i - 3]);
    }
  }

  /** Different drones get different ids. */
  lemma DroneIdsDistinct(i: nat, j: nat)
    requires i < 6 && j < 6
    requires "d" + ToBase(i + 1, 10) == "d" + ToBase(j + 1, 10)
    ensures i == j
  {
    assert ToBase(i + 1, 10) == ("d" + ToBase(i + 1, 10))[1..];
    ToBaseRoundTrip(i + 1, 10);
    ToBaseRoundTrip(j + 1, 10);
  }

  /** The world at start-up: the stored ledger (or the genesis block) with
      the start-up entry, the start-up fleet, the four deterrent stations,
      and nothing pending. */
  function InitialWorld(stored: seq<Ledger.Block>, rs: seq<real>, clock: Ledger.Clock): World
    requires |rs| == 6 && forall i | 0 <= i < 6 :: UnitInterval(rs[i])
  {
    World(InitialUnits(rs), [], Ledger.InitialLedger(stored, clock), InitialStations, false, None, [], [])
  }

  /** A fresh start satisfies the invariant every command keeps. */
  lemma InitialWorldOk(rs: seq<real>, clock: Ledger.Clock)
    requires |rs| == 6 && forall i | 0 <= i < 6 :: UnitInterval(rs[i])
    ensures WorldOk(InitialWorld([], rs, clock))
  {
    var us, ledger := InitialUnits(rs), Ledger.InitialLedger([], clock);
    assert InitialWorld([], rs, clock) == World(us, [], ledger, InitialStations, false, None, [], []);
    StationIdsDistinct();
    Ledger.FreshLedgerIsChain(clock);
    assert UnitsOk(us) && |ledger| >= 1 && Ledger.Chain(ledger, 1);
  }

  lemma StationIdsDistinct()
    ensures UniqueStationIds(InitialStations)
  {
  }
}

=== FILE: Units.dfy ===
/** The units on the map — guards, patrol vehicles, the police car and the
    drones — and what one tick of the simulation does to each of them:
    the apprehension dwell, route planning, the drone battery and
    observation clocks, arrival and the interpolation step. */
module Units {
  import opened Common
  import opened RoadGraph
  import opened Layout

  /** Every status a unit can be in; `StatusFits` says which go with which
      kind of unit. */
  datatype Status =
    | Patrolling | Stationary | Responding | Investigating | Apprehending
    | ReturningToStation | Tracking | Charging | ReturningToBase | Observing

  datatype EntityKind = Resident | Unknown

  /** A person a drone has picked up while observing. */
  datatype Entity = Entity(id: string, kind: EntityKind, location: Point)

  /** The kind of a unit; a drone carries its battery level (percent), the
      clock reading at which its observation began, what it has detected
      and its patrol sector. */
  datatype Kind =
    | Guard | Vehicle | Police
    | Drone(battery: real, observationStart: Option<int>, detected: seq<Entity>, sector: Option<Sector>)

  /** `AnyUnit`. An absent `path` is the empty path and an absent
      `apprehendingTimer` is 0: the code treats them alike. */
  datatype Unit = Unit(
    id: string, name: string, kind: Kind, status: Status, location: Point,
    missionTarget: Option<Point>, missionDescription: Option<string>,
    path: seq<Point>, apprehendingTimer: nat)

  /** A patrol unit, one that walks the roads. */
  predicate OnRoads(u: Unit) { u.kind.Guard? || u.kind.Vehicle? || u.kind.Police? }

  /** The statuses `PatrolUnit` and `DroneUnit` admit. */
  predicate StatusFits(k: Kind, s: Status)
  {
    if k.Drone? then s in {Patrolling, Responding, Tracking, Charging, ReturningToBase, Observing}
    else s in {Patrolling, Stationary, Responding, Investigating, Apprehending, ReturningToStation}
  }

  datatype Threat = Low | Medium | High

  /** A detected anomaly; an absent `isRobbery` is false. */
  datatype Anomaly = Anomaly(description: string, location: Point, threat: Threat, isRobbery: bool)

  /** `anomalies.find(a => a.description === desc)`: an absent description
      matches nothing. */
  function FindAnomaly(anomalies: seq<Anomaly>, desc: Option<string>): (r: Option<Anomaly>)
    ensures r.Some? ==> r.value in anomalies && desc == Some(r.value.description)
    ensures r.None? <==> desc.None? || forall a | a in anomalies :: a.description != desc.value
  {
    if desc.None? then None
    else match FirstWhere(anomalies, (a: Anomaly) => a.description == desc.value)
      case None => None
      case Some(k) => Some(anomalies[k])
  }

  /** The random draws one unit may consume in one tick: a waypoint pick, a
      point, the number of entities detected and the draws for each entity. */
  datatype EntityDraw = EntityDraw(kind: real, x: real, y: real)
  datatype Draws = Draws(node: real, px: real, py: real, count: real, entities: seq<EntityDraw>)

  predicate ValidDraws(d: Draws)
  {
    && UnitInterval(d.node) && UnitInterval(d.px) && UnitInterval(d.py) && UnitInterval(d.count)
    && |d.entities| >= 3
    && forall i | 0 <= i < |d.entities| ::
         UnitInterval(d.entities[i].kind) && UnitInterval(d.entities[i].x) && UnitInterval(d.entities[i].y)
  }

  /** The outcome of one unit's tick: the new unit, and the anomaly it
      secured when it finished an apprehension. */
  datatype StepResult = StepResult(unit: Unit, secured: Option<Anomaly>)

  // ---------------------------------------------------------------- dwell

  /** Number of ticks an apprehension takes. */
  const ApprehendTicks: nat := 2

  /** The apprehension dwell of a patrol unit: count the tick; on the second
      one the suspect is secured, and the police car heads back to the gate
      while guards and vehicles resume patrolling. */
  function Apprehend(u: Unit, anomalies: seq<Anomaly>): (r: StepResult)
    requires OnRoads(u) && u.status == Apprehending
    ensures r.unit.location == u.location && r.unit.id == u.id && r.unit.kind == u.kind
    ensures u.apprehendingTimer + 1 < ApprehendTicks ==>
              r == StepResult(u.(apprehendingTimer := u.apprehendingTimer + 1), None)
    ensures u.apprehendingTimer + 1 >= ApprehendTicks ==>
              && r.unit.status == (if u.kind.Police? then ReturningToStation else Patrolling)
              && r.unit.missionTarget == (if u.kind.Police? then Some(MainGateEntrance) else None)
              && r.unit.missionDescription.None? && r.unit.path == [] && r.unit.apprehendingTimer == 0
              && r.secured == FindAnomaly(anomalies, u.missionDescription)
  {
    var t := u.apprehendingTimer + 1;
    if t >= ApprehendTicks then
      StepResult(
        u.(status := if u.kind.Police? then ReturningToStation else Patrolling,
           missionTarget := if u.kind.Police? then Some(MainGateEntrance) else None,
           missionDescription := None, path := [], apprehendingTimer := 0),
        FindAnomaly(anomalies, u.missionDescription))
    else StepResult(u.(apprehendingTimer := t), None)
  }

  // ------------------------------------------------------------- planning

  /** The coordinates of a list of waypoints. */
  function Coords(ns: seq<NodeId>): (ps: seq<Point>)
    ensures |ps| == |ns|
    ensures forall i | 0 <= i < |ns| :: ps[i] == NodePoint(ns[i])
  {
    if |ns| == 0 then [] else [NodePoint(ns[0])] + Coords(ns[1..])
  }

  /** The route to a mission target: along the roads from the waypoint
      nearest the unit to the one nearest the target, then on to the target
      itself unless the last waypoint is within 1 of it. */
  function MissionPath(from: Point, target: Point): (r: seq<Point>)
    ensures r == [] <==> FindPath(Nearest(from), Nearest(target)) == []
    ensures r != [] ==> r[0] == NodePoint(Nearest(from))
    ensures r != [] ==> DistSq(r[|r| - 1], target) <= 1.0
    ensures r != [] ==> |r| <= |FindPath(Nearest(from), Nearest(target))| + 1
    ensures var ns := FindPath(Nearest(from), Nearest(target));
            r != [] ==>
              && |ns| <= |r| && r[..|ns|] == Coords(ns)
              && (|r| == |ns| + 1 <==> DistSq(NodePoint(ns[|ns| - 1]), target) > 1.0)
              && (|r| == |ns| + 1 ==> r[|ns|] == target)
  {
    var ns := FindPath(Nearest(from), Nearest(target));
    if ns == [] then []
    else
      var ps := Coords(ns);
      if DistSq(ps[|ps| - 1], target) > 1.0 then ps + [target] else ps
  }

  /** The route a patrolling unit picks: to the waypoint the draw selects,
      unless that is the waypoint it is already nearest to. */
  function PatrolPath(from: Point, r: real): (p: seq<Point>)
    requires UnitInterval(r)
    ensures Nearest(from) == AllNodes[PickIndex(r, |AllNodes|)] ==> p == []
    ensures p != [] ==> p[0] == NodePoint(Nearest(from))
    ensures p != [] ==> p[|p| - 1] == NodePoint(AllNodes[PickIndex(r, |AllNodes|)])
    ensures Nearest(from) != AllNodes[PickIndex(r, |AllNodes|)] ==>
              p == Coords(FindPath(Nearest(from), AllNodes[PickIndex(r, |AllNodes|)]))
  {
    var goal := AllNodes[PickIndex(r, |AllNodes|)];
    var start := Nearest(from);
    if start != goal then Coords(FindPath(start, goal)) else []
  }

  /** Route planning for the units that walk the roads (not a police car
      waiting off the map): a unit with a target and no route gets the
      mission route; a patrolling unit without a route gets a random one. */
  function Plan(u: Unit, d: Draws): (r: Unit)
    requires ValidDraws(d)
    ensures r == u.(path := r.path)
    ensures u.path != [] ==> r == u
    ensures !OnRoads(u) || (u.kind.Police? && u.status == Stationary) ==> r == u
    ensures OnRoads(u) && !(u.kind.Police? && u.status == Stationary) && u.path == [] ==>
              if u.missionTarget.Some? then r.path == MissionPath(u.location, u.missionTarget.value)
              else if u.status == Patrolling then r.path == PatrolPath(u.location, d.node)
              else r == u
  {
    if OnRoads(u) && !(u.kind.Police? && u.status == Stationary) then
      if u.missionTarget.Some? && u.path == [] then
        var p := MissionPath(u.location, u.missionTarget.value);
        if p != [] then u.(path := p) else u
      else if u.status == Patrolling && u.path == [] then
        u.(path := PatrolPath(u.location, d.node))
      else u
    else u
  }

  /** A newly planned route starts at the waypoint nearest the unit and
      ends within 1 of the mission target, or, for a patrol, at the drawn
      waypoint. */
  lemma PlannedRoute(u: Unit, d: Draws)
    requires ValidDraws(d)
    ensures var r := Plan(u, d);
            r.path != u.path ==>
              && r.path != [] && r.path[0] == NodePoint(Nearest(u.location))
              && (u.missionTarget.Some? ==> DistSq(r.path[|r.path| - 1], u.missionTarget.value) <= 1.0)
              && (u.missionTarget.None? ==> r.path[|r.path| - 1] == NodePoint(AllNodes[PickIndex(d.node, |AllNodes|)]))
  {
  }

  // --------------------------------------------------------------- drones

  const FullBattery: real := 100.0
  const LowBattery: real := 20.0

  /** Battery drain per tick: more while tracking or observing. */
  function Drain(s: Status): (r: real)
    ensures 0.0 < r <= 0.3
  {
    if s == Tracking || s == Observing then 0.3 else 0.1
  }

  /** The drone battery step: a charging drone gains 1.5 (at most to full)
      and resumes patrolling when full; any other drone drains, is put on
      charge at the base when it runs flat, and otherwise heads for the
      base once below 20 unless it is tracking, already heading there or
      charging. */
  function BatteryStep(u: Unit): (r: Unit)
    requires u.kind.Drone?
    ensures r.kind.Drone? && r.id == u.id && r.name == u.name && r.path == u.path
    ensures r.kind == u.kind.(battery := r.kind.battery)
    ensures u.status == Charging ==>
              && r.kind.battery == Min(FullBattery, u.kind.battery + 1.5)
              && r.status == (if r.kind.battery >= FullBattery then Patrolling else Charging)
              && r.location == u.location && r.missionTarget == u.missionTarget
    ensures u.status != Charging && u.kind.battery - Drain(u.status) <= 0.0 ==>
              && r.status == Charging && r.kind.battery == 0.0
              && r.location == DroneBase && r.missionTarget.None?
    ensures u.status != Charging && u.kind.battery - Drain(u.status) > 0.0 ==>
              && r.kind.battery == u.kind.battery - Drain(u.status)
              && r.location == u.location && r.missionTarget == u.missionTarget
              && r.status == (if r.kind.battery < LowBattery && u.status !in {Tracking, ReturningToBase}
                              then ReturningToBase else u.status)
  {
    var b := u.kind.battery;
    if u.status == Charging then
      var b' := Min(FullBattery, b + 1.5);
      u.(kind := u.kind.(battery := b'), status := if b' >= FullBattery then Patrolling else Charging)
    else
      var b' := b - Drain(u.status);
      if b' <= 0.0 then
        u.(kind := u.kind.(battery := 0.0), status := Charging, location := DroneBase, missionTarget := None)
      else if b' < LowBattery && u.status !in {Tracking, ReturningToBase, Charging} then
        u.(kind := u.kind.(battery := b'), status := ReturningToBase)
      else u.(kind := u.kind.(battery := b'))
  }

  /** The battery level stays within 0 to 100. */
  lemma BatteryStaysInRange(u: Unit)
    requires u.kind.Drone? && 0.0 <= u.kind.battery <= FullBattery
    ensures 0.0 <= BatteryStep(u).kind.battery <= FullBattery
  {
  }

  /** How long an observation lasts, in milliseconds. */
  const ObservationMillis: int := 8000

  /** The observation clock: an observation that began (at a non-zero clock
      reading) more than 8 seconds ago ends and the drone resumes patrolling;
      a drone that is not observing forgets what it detected. */
  function ObservationStep(u: Unit, now: int): (r: Unit)
    requires u.kind.Drone?
    ensures r.kind.Drone? && r.kind.battery == u.kind.battery && r.kind.sector == u.kind.sector
    ensures r.location == u.location && r.missionTarget == u.missionTarget && r.path == u.path
    ensures r.status != Observing ==> r.kind.detected == []
    ensures r.status == Observing <==>
              u.status == Observing
              && !(u.kind.observationStart.Some? && u.kind.observationStart.value != 0
                   && now - u.kind.observationStart.value > ObservationMillis)
    ensures r.status == Observing ==> r == u
    ensures u.status != Observing ==> r.status == u.status
  {
    var k := u.kind;
    if u.status == Observing && k.observationStart.Some? && k.observationStart.value != 0
       && now - k.observationStart.value > ObservationMillis then
      u.(status := Patrolling, kind := k.(observationStart := None, detected := []), missionDescription := None)
    else if u.status != Observing && |k.detected| > 0 then
      u.(kind := k.(detected := []))
    else u
  }

  /** The entities a drone reports on arriving at its target: one to three,
      each a resident or unknown person somewhere in the middle of the map. */
  function Detect(now: nat, d: Draws): (es: seq<Entity>)
    requires ValidDraws(d)
    ensures 1 <= |es| <= 3
    ensures forall i | 0 <= i < |es| ::
              && InRect(es[i].location, 20.0, 20.0, 60.0, 60.0)
              && es[i].id == "de" + ToBase(now, 10) + ToBase(i, 10)
  {
    var n := PickIndex(d.count, 3) + 1;
    seq(n, i requires 0 <= i < n => DetectOne(now, i, d.entities[i]))
  }

  function DetectOne(now: nat, i: nat, e: EntityDraw): (r: Entity)
    requires UnitInterval(e.kind) && UnitInterval(e.x) && UnitInterval(e.y)
    ensures InRect(r.location, 20.0, 20.0, 60.0, 60.0)
    ensures r.id == "de" + ToBase(now, 10) + ToBase(i, 10)
  {
    Entity("de" + ToBase(now, 10) + ToBase(i, 10),
           if e.kind > 0.4 then Resident else Unknown,
           Point(20.0 + e.x * 60.0, 20.0 + e.y * 60.0))
  }

  // ------------------------------------------------------------- movement

  /** The point a unit heads for this tick: the next point of its route, or
      its mission target. */
  function Heading(u: Unit): Option<Point>
  {
    if u.path != [] then Some(u.path[0]) else u.missionTarget
  }

  /** The heading after the drone rules: a drone heading home aims at the
      base, and a patrolling drone with nowhere to go picks a random point
      of its sector, or of the middle of the map when it has no sector. The
      heading was fixed before the battery step, so a drone that has just
      been put on charge keeps its old one. */
  function DroneHeading(u: Unit, h: Option<Point>, d: Draws): (r: Option<Point>)
    requires u.kind.Drone? && ValidDraws(d)
    ensures u.status == ReturningToBase ==> r == Some(DroneBase)
    ensures u.status != ReturningToBase && h.Some? ==> r == h
    ensures r.None? <==> h.None? && u.status !in {ReturningToBase, Patrolling}
  {
    if u.status == ReturningToBase then Some(DroneBase)
    else if h.None? && u.status == Patrolling then
      match u.kind.sector
      case Some(s) => Some(SectorPoint(s, d.px, d.py))
      case None => Some(Point(10.0 + d.px * 80.0, 10.0 + d.py * 80.0))
    else h
  }

  /** The fraction of the remaining distance a unit covers in a tick. */
  function Speed(u: Unit): (s: real)
    ensures 0.0 < s < 1.0
  {
    if (u.kind.Police? || u.kind.Vehicle?) && u.status == Responding then 0.5
    else if u.kind.Guard? && u.status == Responding then 0.35
    else if u.kind.Drone? then 0.1
    else 0.25
  }

  /** Move the fraction `s` of the way from `p` to `t`. */
  function Lerp(p: Point, t: Point, s: real): Point
  {
    Point(p.x + (t.x - p.x) * s, p.y + (t.y - p.y) * s)
  }

  /** A step towards a target that is not yet reached shrinks the distance
      to it by the factor `1 - s`. */
  lemma LerpContracts(p: Point, t: Point, s: real)
    requires 0.0 < s < 1.0 && p != t
    ensures DistSq(Lerp(p, t, s), t) == Mul(1.0 - s, 1.0 - s) * DistSq(p, t)
    ensures DistSq(Lerp(p, t, s), t) < DistSq(p, t)
  {
    LerpScales(p, t, s);
    assert DistSq(p, t) > 0.0 by {
      if DistSq(p, t) == 0.0 { SquaresZero(p.x - t.x, p.y - t.y); }
    }
    FactorBelowOne(1.0 - s, DistSq(p, t));
  }

  /** The squared distance left after the step, as a multiple of the one before. */
  lemma LerpScales(p: Point, t: Point, s: real)
    ensures DistSq(Lerp(p, t, s), t) == Mul(1.0 - s, 1.0 - s) * DistSq(p, t)
  {
    var q := Lerp(p, t, s);
    var a := 1.0 - s;
    var dx, dy := p.x - t.x, p.y - t.y;
    assert q.x - t.x == a * dx;
    assert q.y - t.y == a * dy;
    assert (a * dx) * (a * dx) + (a * dy) * (a * dy) == (a * a) * (dx * dx + dy * dy);
  }

  /** Scaling a positive quantity by the square of a factor in (0, 1) shrinks it. */
  lemma FactorBelowOne(a: real, x: real)
    requires 0.0 < a < 1.0 && x > 0.0
    ensures Mul(a, a) * x < x
  {
    MulStrict(a, 1.0, a);
    MulStrict(Mul(a, a), 1.0, x);
  }

  /** Arrival: within 1.5 of the target, compared on squares. */
  const ArrivalSq: real := 2.25

  /** The police car heading back has reached the gate. */
  predicate ParksOffMap(u: Unit)
  {
    u.kind.Police? && u.status == ReturningToStation && u.location.y < 15.0
  }

  /** A patrol unit responding to a robbery has reached the scene. */
  predicate StartsArrest(u: Unit, anomalies: seq<Anomaly>)
  {
    var target := FindAnomaly(anomalies, u.missionDescription);
    !u.kind.Drone? && u.status == Responding && target.Some? && target.value.isRobbery
  }

  /** What a unit does on reaching its target. With more route left it just
      drops the reached point. Otherwise the police car back at the gate
      goes off the map; a patrol unit responding to a robbery begins the
      apprehension where it stands; a patrolling or tracking drone begins
      to observe and reports what it sees, a drone heading home goes on
      charge; and any other patrol unit resumes patrolling. */
  function Arrive(u: Unit, anomalies: seq<Anomaly>, now: nat, d: Draws): (r: Unit)
    requires ValidDraws(d)
    ensures r.id == u.id && r.name == u.name && r.kind.Drone? == u.kind.Drone?
    ensures !u.kind.Drone? ==> r.kind == u.kind
    ensures |u.path| > 1 ==> r == u.(path := u.path[1..])
    ensures r.location == u.location || r.location == OffMapStation
    ensures u.kind.Drone? ==> r.kind.battery == u.kind.battery && r.kind.sector == u.kind.sector
    ensures StatusFits(u.kind, u.status) ==> StatusFits(r.kind, r.status)
    ensures |u.path| <= 1 && ParksOffMap(u) ==>
              && r.status == Stationary && r.location == OffMapStation
              && r.missionTarget.None? && r.path == []
    ensures |u.path| <= 1 && !ParksOffMap(u) && StartsArrest(u, anomalies) ==>
              && r.status == Apprehending && r.location == u.location
              && r.missionTarget == Some(u.location) && r.path == [] && r.apprehendingTimer == 0
    ensures |u.path| <= 1 && !ParksOffMap(u) && !StartsArrest(u, anomalies) ==>
              && r.location == u.location && r.missionTarget.None? && r.path == []
              && (!u.kind.Drone? ==> r.status == Patrolling)
              && (u.kind.Drone? && u.status in {Patrolling, Tracking} ==>
                    && r.status == Observing && r.kind.observationStart == Some(now)
                    && r.kind.detected == Detect(now, d))
              && (u.kind.Drone? && u.status == ReturningToBase ==> r.status == Charging && r.kind == u.kind)
              && (u.kind.Drone? && u.status !in {Patrolling, Tracking, ReturningToBase} ==>
                    r.status == u.status && r.kind == u.kind)
  {
    if |u.path| > 1 then u.(path := u.path[1..])
    else
      if ParksOffMap(u) then
        u.(status := Stationary, location := OffMapStation, missionTarget := None, path := [])
      else if StartsArrest(u, anomalies) then
        u.(status := Apprehending, path := [], missionTarget := Some(u.location), apprehendingTimer := 0)
      else
        var v := u.(missionTarget := None, path := []);
        if u.kind.Drone? then
          if u.status == Patrolling || u.status == Tracking then
            v.(status := Observing, kind := v.kind.(observationStart := Some(now), detected := Detect(now, d)))
          else if u.status == ReturningToBase then v.(status := Charging)
          else v
        else v.(status := Patrolling)
  }

  /** The end of a unit's tick: arrive when within reach of the heading,
      otherwise take a step towards it. */
  function Advance(u: Unit, heading: Option<Point>, anomalies: seq<Anomaly>, now: nat, d: Draws): (r: Unit)
    requires ValidDraws(d)
    ensures heading.None? ==> r == u
    ensures heading.Some? && DistSq(heading.value, u.location) >= ArrivalSq ==>
              r == u.(location := Lerp(u.location, heading.value, Speed(u)))
    ensures heading.Some? && DistSq(heading.value, u.location) < ArrivalSq ==>
              r == Arrive(u, anomalies, now, d) && (r.location == u.location || r.location == OffMapStation)
  {
    match heading
    case None => u
    case Some(t) =>
      if DistSq(t, u.location) < ArrivalSq then Arrive(u, anomalies, now, d)
      else u.(location := Lerp(u.location, t, Speed(u)))
  }

  /** One unit's tick (the body of the `prevUnits.map` callback). */
  function StepUnit(u: Unit, anomalies: seq<Anomaly>, now: nat, d: Draws): (r: StepResult)
    requires ValidDraws(d)
    ensures r.unit.id == u.id && r.unit.name == u.name
    ensures r.unit.kind.Drone? == u.kind.Drone?
    ensures !u.kind.Drone? ==> r.unit.kind == u.kind
    ensures r.secured.Some? ==> r.secured.value in anomalies && u.status == Apprehending
  {
    if OnRoads(u) && u.status == Apprehending then Apprehend(u, anomalies)
    else
      var p := Plan(u, d);
      var h := Heading(p);
      if p.kind.Drone? then
        var q := ObservationStep(BatteryStep(p), now);
        StepResult(Advance(q, DroneHeading(q, h, d), anomalies, now, d), None)
      else
        var h' := if p.kind.Police? && p.status == ReturningToStation then Some(MainGateEntrance) else h;
        StepResult(Advance(p, h', anomalies, now, d), None)
  }

  // ------------------------------------------------------------- properties

  /** A patrol unit that begins an apprehension stays where it is for two
      ticks; on the second it secures the anomaly its mission names and is
      released: the police car to return to the gate, anyone else to patrol. */
  lemma ApprehensionTakesTwoTicks(u: Unit, anomalies: seq<Anomaly>, now1: nat, now2: nat, d1: Draws, d2: Draws)
    requires OnRoads(u) && u.status == Apprehending && u.apprehendingTimer == 0
    requires ValidDraws(d1) && ValidDraws(d2)
    ensures var s1 := StepUnit(u, anomalies, now1, d1);
            var s2 := StepUnit(s1.unit, anomalies, now2, d2);
            && s1 == StepResult(u.(apprehendingTimer := 1), None)
            && s2.unit.location == u.location
            && s2.unit.status == (if u.kind.Police? then ReturningToStation else Patrolling)
            && s2.unit.missionTarget == (if u.kind.Police? then Some(MainGateEntrance) else None)
            && s2.unit.missionDescription.None? && s2.unit.path == [] && s2.unit.apprehendingTimer == 0
            && s2.secured == FindAnomaly(anomalies, u.missionDescription)
  {
  }

  /** A patrol unit responding to a robbery that reaches the end of its
      route begins the apprehension on the spot, with the dwell counter at 0. */
  lemma RespondingUnitApprehends(u: Unit, anomalies: seq<Anomaly>, now: nat, d: Draws)
    requires ValidDraws(d) && OnRoads(u) && u.status == Responding
    requires |u.path| == 1 && DistSq(u.path[0], u.location) < ArrivalSq
    requires var a := FindAnomaly(anomalies, u.missionDescription); a.Some? && a.value.isRobbery
    ensures StepUnit(u, anomalies, now, d) ==
              StepResult(u.(status := Apprehending, path := [], missionTarget := Some(u.location),
                            apprehendingTimer := 0), None)
  {
  }

  /** A guard or vehicle that reaches the end of an investigation route
      drops the mission and resumes patrolling where it stands. */
  lemma InvestigatorResumesPatrol(u: Unit, anomalies: seq<Anomaly>, now: nat, d: Draws)
    requires ValidDraws(d) && (u.kind.Guard? || u.kind.Vehicle?) && u.status == Investigating
    requires |u.path| == 1 && DistSq(u.path[0], u.location) < ArrivalSq
    ensures StepUnit(u, anomalies, now, d) ==
              StepResult(u.(status := Patrolling, missionTarget := None, path := []), None)
  {
  }

  /** A tracking drone with charge to spare that reaches the end of its
      route starts observing where it stands, from now, and reports what it
      detects. */
  lemma TrackingDroneObserves(u: Unit, anomalies: seq<Anomaly>, now: nat, d: Draws)
    requires ValidDraws(d) && u.kind.Drone? && u.status == Tracking && u.kind.battery > 0.3
    requires |u.path| == 1 && DistSq(u.path[0], u.location) < ArrivalSq
    ensures var r := StepUnit(u, anomalies, now, d).unit;
            && r.status == Observing && r.location == u.location
            && r.kind.observationStart == Some(now) && r.kind.detected == Detect(now, d)
            && r.kind.battery == u.kind.battery - Drain(Tracking)
            && r.missionTarget.None? && r.path == []
  {
    var q := ObservationStep(BatteryStep(u), now);
    assert q.status == Tracking && q.location == u.location && q.path == u.path;
    assert StepUnit(u, anomalies, now, d).unit == Arrive(q, anomalies, now, d);
  }

  /** The police car heading back that reaches the gate leaves the map and
      waits at the station. */
  lemma PoliceReturnsOffMap(u: Unit, anomalies: seq<Anomaly>, now: nat, d: Draws)
    requires ValidDraws(d) && u.kind.Police? && u.status == ReturningToStation
    requires u.missionTarget == None || u.missionTarget == Some(MainGateEntrance)
    requires |u.path| <= 1 && DistSq(MainGateEntrance, u.location) < ArrivalSq
    ensures var r := StepUnit(u, anomalies, now, d).unit;
            r.status == Stationary && r.location == OffMapStation && r.missionTarget.None? && r.path == []
  {
    var p := Plan(u, d);
    GateRouteIsShort(u, d);
    var dx, dy := MainGateEntrance.x - u.location.x, MainGateEntrance.y - u.location.y;
    assert dx * dx + dy * dy == DistSq(MainGateEntrance, u.location);
    SmallSquares(dx, dy);
    assert p.location.y < 15.0;
    assert StepUnit(u, anomalies, now, d).unit == Arrive(p, anomalies, now, d);
  }

  /** Within reach of the gate, the route back is at most the gate itself. */
  lemma GateRouteIsShort(u: Unit, d: Draws)
    requires ValidDraws(d) && u.kind.Police? && u.status == ReturningToStation
    requires u.missionTarget == None || u.missionTarget == Some(MainGateEntrance)
    requires |u.path| <= 1 && DistSq(MainGateEntrance, u.location) < ArrivalSq
    ensures |Plan(u, d).path| <= 1
  {
    if u.path == [] && u.missionTarget.Some? {
      GateMissionPath(u.location);
      assert Plan(u, d).path == MissionPath(u.location, MainGateEntrance);
    }
  }

  /** Within reach of the gate, the mission route to it is the gate waypoint. */
  lemma GateMissionPath(from: Point)
    requires DistSq(MainGateEntrance, from) < ArrivalSq
    ensures MissionPath(from, MainGateEntrance) == [NodePoint(Gate)]
  {
    assert DistSq(from, NodePoint(Gate)) < 2.25;
    NearestNearGate(from);
    NearestAtGate();
    assert FindPath(Gate, Gate) == [Gate];
  }

  /** A police car waiting off the map with nothing to do stays put. */
  lemma StationaryPoliceWaits(u: Unit, anomalies: seq<Anomaly>, now: nat, d: Draws)
    requires ValidDraws(d) && u.kind.Police? && u.status == Stationary
    requires u.missionTarget.None? && u.path == []
    ensures StepUnit(u, anomalies, now, d) == StepResult(u, None)
  {
  }

  /** A patrolling unit with no route standing on the gate's coordinates
      never moves: the waypoint nearest to it is the gate, which no road
      reaches, so every random route it picks is empty. */
  lemma PatrolStuckAtGate(u: Unit, anomalies: seq<Anomaly>, now: nat, d: Draws)
    requires ValidDraws(d) && OnRoads(u) && u.status == Patrolling
    requires u.location == NodePoint(Gate) && u.path == [] && u.missionTarget.None?
    ensures StepUnit(u, anomalies, now, d) == StepResult(u, None)
  {
    GatePatrolPath(d.node);
    assert Plan(u, d) == u;
    assert Heading(u).None?;
  }

  /** Every random route from the gate's coordinates is empty. */
  lemma GatePatrolPath(r: real)
    requires UnitInterval(r)
    ensures PatrolPath(NodePoint(Gate), r) == []
  {
    NearestAtGate();
    var goal := AllNodes[PickIndex(r, |AllNodes|)];
    if goal != Gate {
      FindPathGateEmpty(goal);
    }
  }

  /** A drone that runs flat is put on charge at the base with its battery
      at 0 and its mission dropped; but the heading it had before the
      battery step still applies, so in the same tick it sets off from the
      base towards its old route point or target. */
  lemma DroneRunsFlat(u: Unit, anomalies: seq<Anomaly>, now: nat, d: Draws)
    requires ValidDraws(d) && u.kind.Drone? && u.status != Charging
    requires u.kind.battery <= Drain(u.status)
    ensures var r := StepUnit(u, anomalies, now, d).unit;
            && r.status == Charging && r.kind.battery == 0.0 && r.missionTarget.None?
            && (Heading(u).None? || DistSq(Heading(u).value, DroneBase) < ArrivalSq ==> r.location == DroneBase)
            && (Heading(u).Some? && DistSq(Heading(u).value, DroneBase) >= ArrivalSq ==>
                  r.location == Lerp(DroneBase, Heading(u).value, 0.1))
  {
    assert Plan(u, d) == u;
    var q := ObservationStep(BatteryStep(u), now);
    assert q.status == Charging && q.kind.battery == 0.0 && q.location == DroneBase && q.missionTarget.None?;
    assert DroneHeading(q, Heading(u), d) == Heading(u);
    assert StepUnit(u, anomalies, now, d).unit == Advance(q, Heading(u), anomalies, now, d);
  }

  /** A drone's battery level stays within 0 to 100 over a tick. */
  lemma StepKeepsBatteryInRange(u: Unit, anomalies: seq<Anomaly>, now: nat, d: Draws)
    requires ValidDraws(d) && u.kind.Drone? && 0.0 <= u.kind.battery <= FullBattery
    ensures var r := StepUnit(u, anomalies, now, d).unit;
            r.kind.Drone? && 0.0 <= r.kind.battery <= FullBattery
  {
    BatteryStaysInRange(u);
  }

  /** A tick never gives a unit a status its kind does not admit. */
  lemma StepKeepsStatusFits(u: Unit, anomalies: seq<Anomaly>, now: nat, d: Draws)
    requires ValidDraws(d) && StatusFits(u.kind, u.status)
    ensures var r := StepUnit(u, anomalies, now, d).unit;
            StatusFits(r.kind, r.status)
  {
    if !(OnRoads(u) && u.status == Apprehending) {
      var p := Plan(u, d);
      assert StatusFits(p.kind, p.status);
      if p.kind.Drone? {
        var q := ObservationStep(BatteryStep(p), now);
        assert StatusFits(q.kind, q.status);
      }
    }
  }
}
